=== FILE: README.md ===
# Bandwidth orchestration: a verified model of the admission-control core

The bandwidth orchestration service keeps each running DMApp (a multi-device
media application made of several playback components) within a bandwidth
budget. A background job runs once per tick for every DMApp. On each tick it
does the following:

- It reads the DMApp's layout and splits its components into priority tiers.
- It reads each component's averaged metrics.
- After a grace period of three ticks with metrics, it checks whether the
  DMApp fits its budget. If it does not, it walks the components down their
  video bitrate ladders, lowest tiers first, disabling them only as a last
  resort. Without a budget every round first undoes the previous rounds'
  work, so only the last round's work on the last tier lasts.
- It pushes the resulting action list (nothing, downgrade or disable per
  component) to the DMApp's clients.
- A job whose DMApp has been quiet for too long is stopped.

The model is written in Dafny and is organised by the program's structure:

| file | module | models |
|---|---|---|
| `stats.dfy` | `Stats` | the per-component metrics record and sums over a metrics object in key order |
| `degradation.dfy` | `Degradation` | demand normalization, the one-rung ladder step, `conformComponentGroup`, `getBandwidthUsage` and `createActionList`, on a `Snapshot` class that holds the metrics object the code mutates in place |
| `tiering.dfy` | `Tiering` | `prepDMAppData`: the priority range, the tier count, the sort by descending priority and the equal-width binning |
| `evaluation.dfy` | `Evaluation` | `evaluateDMApp`: pruning, grace, the fast paths, the tier-escalation rounds and the notice that is sent |
| `layout.dfy` | `LayoutDB` | `extractComponents`: collecting one DMApp's components from a layout document |
| `logger.dfy` | `Logger` | `formatLogMsg` and `configure` |

Loops in the source are Dafny methods with loop invariants. Each loop
method's postcondition either states its result outright or ties its result
and the new state to a function of its inputs: `Degradation.Snapshot.ConformGroup`
computes exactly `Degradation.Conform`, `Evaluation.Escalate` computes exactly
`Evaluation.Escalated`, and so on. What the engine promises is then proved
about those functions, as their own postconditions or as lemmas. Objects the
source mutates in place are classes: `Degradation.Snapshot` for the metrics
object and `Logger.LoggerConfig` for the logger configuration.

Bandwidths and bitrates are exact `real` numbers. Priorities are `int`, and
JavaScript's `parseInt((p - min) / ((max - min + 1) / levels))` is written as
the floor of the exact quotient `(p - min) * levels / (max - min + 1)`; both
operands are non-negative there. The IEEE rounding of JavaScript's two
divisions is not modelled (see `Tiering.TierOf` under "Left out"). A JavaScript object is a sequence of keys in insertion
order together with a map. Assigning an existing key keeps its position.

Places where the code does something its comments or its evident intent do
not say. The model follows the code in each case:

- **Degradation order inside a tier.** The comparator at `index.js:608`
  (`b.videoBandwidth - a.videoBandwidth`) is written to order a tier by
  descending video bandwidth, but it reads `.videoBandwidth` from the
  instance-id strings. That yields `NaN`, so the sort leaves the tier in its binning order, and so does
  the model (`Degradation.Conform`).
- **Stepping up from below the ladder.** The comment at `index.js:631` speaks
  of finding the highest rung lower than the current bandwidth. When the
  current bandwidth is below the lowest rung, the scan of `index.js:632-634`
  stops at once and `index.js:635-644` sets the bandwidth to the lowest rung,
  which raises it; the usage then grows by the difference (`Degradation.StepOnLadder`).
- **All-negative priorities.** `max` starts at 0 (`index.js:401`), so when
  every priority is negative the range ends at 0 (`Tiering.NegativePrioritiesEndAtZero`).
- **Zero tiers.** When `priorityLevels` is 0 or negative and the DMApp has
  components, `prepDMAppData` indexes an array slot that does not exist
  (`index.js:434`) and throws. The surrounding catch (`index.js:571-580`)
  handles that exactly like a failed layout fetch. The model returns `None`
  from `Tiering.TierLists`, and `Evaluation.Evaluate` prunes on that path.
- **Renormalization without a budget.** Without a budget, each round
  renormalizes. The round's usage becomes the normalization total divided by
  0.95 and its budget becomes 0 (`index.js:534-539`). A disabled component
  (video bandwidth −1, `index.js:58`) is therefore raised back to its playing
  bitrate by the zero test of `index.js:591` (`Degradation.NormalizeRevivesDisabled`).
  The same renormalization undoes whatever rounds 1 to L − 1 did, and the
  last round (L, the number of tiers) has no tiers below it, so it conforms
  only tier L. Without a budget the engine therefore never disables a
  component outside tier L, and downgrades one only to a bandwidth of 0,
  which renormalization leaves alone (`Evaluation.UnlimitedLastRound`).

## Model

| member | source | states |
|---|---|---|
| `Stats.TotalUpdate` | index.js:656-668 | replacing one record of the metrics object changes a sum over its keys by exactly that record's change, and by nothing when the key is not summed |
| `Degradation.LowerRung` | index.js:632-634 | the scan stops on a rung of the ladder; every rung it passed above the first is below the current bandwidth; the next rung, if any, is not |
| `Degradation.FindLowerRung` | index.js:632-634 | the scanning loop returns exactly that rung |
| `Degradation.LowerRungOfRung` | index.js:632-635 | a component sitting on rung k > 0 steps to a lower rung index; it is rung k - 1 exactly when k is 1 or rung k - 1 is strictly below rung k (a repeated rung is skipped) |
| `Degradation.Step` | index.js:635-648 | one visit keeps the record well formed and changes only its video bandwidth, to the old value, a rung below it, the lowest rung (which may raise it) or the disabled marker; the usage falls by exactly the change in occupied bandwidth; it disables only when shutdown is allowed; when it frees bandwidth the rank strictly falls; when it frees nothing the component is at its bottom; a component at its bottom stays there |
| `Degradation.StepOnLadder` | index.js:632-645 | above the lowest rung the step lands on the largest rung strictly below; below the lowest rung it is raised to it and frees a negative amount; on the lowest rung it disables under shutdown and otherwise stays |
| `Degradation.Gap` | index.js:591-599 | the claim normalization adds for one record is never negative, is positive exactly for a non-zero measured bandwidth below the playing bitrate, and then lifts the measured bandwidth exactly to that bitrate |
| `Degradation.Normalized` | index.js:590-599 | only the video bandwidth changes; it rises by exactly the gap; the result has no gap left; well-formedness is kept |
| `Degradation.NormalizeRevivesDisabled` | index.js:591-598 | the disabled marker −1 is not 0, so normalization raises a disabled component to its playing bitrate and claims playing + 1 |
| `Degradation.GapTotalNonNegative` | index.js:586-601 | the total normalizeComponents returns is never negative |
| `Degradation.ActionFor` | index.js:678-690 | the action carries the final video bandwidth; disable exactly for a disabled component, downgrade exactly when below the playing bitrate, nothing otherwise; upgrade and preserve are never produced |
| `Degradation.PassSettles` | index.js:614 | once usage fits the budget, the rest of a pass visits nothing |
| `Degradation.AdvanceBound` | index.js:617-648 | one more visit of a pass keeps its envelope: the visited member steps down as allowed and nothing else changes, usage is accounted exactly, the rank sum never rises and falls with every visit that frees bandwidth, and a pass that has freed nothing is within budget or has every visited member at its bottom |
| `Degradation.PassEnvelope` | index.js:611-649 | every prefix of one pass keeps that envelope, and a pass that starts within budget changes nothing |
| `Degradation.ConformEnvelope` | index.js:605-653 | conformComponentGroup only steps down members of the group (never disabling without shutdown, never lifting one off its bottom) and leaves every other record; the returned usage is the old one less the bandwidth freed; a call within budget changes nothing; it returns over budget only with every member of the group at its bottom |
| `Degradation.Snapshot.BandwidthUsage` | index.js:656-668 | the usage is the sum over all keys of the measured bandwidth, or of the top rungs when max is asked for |
| `Degradation.Snapshot.Normalize` | index.js:585-602 | every record becomes its normalized form, no key is added or dropped, and the returned total is the sum of the gaps, which is non-negative |
| `Degradation.Snapshot.NormalizeAt` | index.js:587-600 | one iteration normalizes the next record in key order, leaves the rest, and adds that record's gap to the total |
| `Degradation.Snapshot.ConformGroup` | index.js:605-653 | the while loop leaves exactly the records and usage of `Conform`: whole passes over the group in its given order until usage fits or a pass frees nothing |
| `Degradation.Snapshot.Pass` | index.js:611-649 | one pass of the for loop leaves exactly the records, usage and changed flag of `PassOver` over the whole group |
| `Degradation.Snapshot.PassVisit` | index.js:614-649 | one iteration skips a member without metrics or disabled and otherwise visits it, moving from the first i visits of `PassOver` to the first i + 1 |
| `Degradation.Snapshot.Visit` | index.js:617-646 | a visit replaces exactly one record by its `Step` and returns the bandwidth that step freed |
| `Degradation.Snapshot.CreateActionList` | index.js:675-694 | one entry per metrics key, in key order, each holding the action for that key's final record |
| `Tiering.MinPriority` | index.js:400-410 | the minimum is at most every priority and is attained |
| `Tiering.MaxPriority` | index.js:400-410 | the maximum starts at 0: it is non-negative, at least every priority, and attained unless it is 0 |
| `Tiering.PriorityRange` | index.js:400-410 | the scanning loop finds no minimum exactly for no components, and otherwise those two bounds |
| `Tiering.PriorityRangeIsUnique` | index.js:400-410 | any pair of bounds with the loop's properties is exactly the minimum and maximum |
| `Tiering.NegativePrioritiesEndAtZero` | index.js:401-409 | when every priority is negative the range still ends at 0 |
| `Tiering.LevelCount` | index.js:412-420 | the tier count is the smaller of the requested count (3 when none is requested) and the number of components: it exceeds neither and equals one of them |
| `Tiering.TierOf` | index.js:433 | every priority in the range lands in a tier from 1 to levels |
| `Tiering.TierOfMonotone` | index.js:423-433 | a higher priority never lands in a lower tier |
| `Tiering.LowestPriorityInLastTier` | index.js:423-433 | the minimum-priority components land in the last tier, so equal priorities put everything there |
| `Tiering.Insert` | index.js:424-427 | inserting into a descending list keeps it descending and adds exactly the new component |
| `Tiering.SortByPriority` | index.js:424-427 | the keys sorted by descending priority are a permutation of the components |
| `Tiering.TierEntriesMembers` | index.js:432-435 | a tier holds exactly the sorted components whose priority maps to it |
| `Tiering.TierEntriesDescending` | index.js:424-435 | each tier is in descending priority order |
| `Tiering.TierLists` | index.js:395-438 | prepDMAppData fails exactly when there are components but no tiers; no components gives no tiers; otherwise there are exactly the clamped number of tiers |
| `Tiering.Bin` | index.js:428-435 | the binning loop builds exactly the tiers of `Tiers` |
| `Tiering.BinStep` | index.js:432-435 | one turn of the binning loop appends the key's id to the tier its priority maps to, which lies between 1 and levels |
| `Tiering.PrepTiers` | index.js:395-438 | the imperative prepDMAppData computes exactly TierLists |
| `Tiering.TiersCover` | index.js:428-435 | the ids in the tiers are exactly the component ids |
| `Tiering.TiersPartition` | index.js:432-435 | with distinct ids, each component is in exactly one tier, the one its priority maps to, and that tier lies between 1 and levels |
| `Tiering.TiersDescending` | index.js:424-435 | every tier prepDMAppData returns is in descending priority order |
| `Evaluation.FetchFailurePrune` | index.js:560-578 | a failed fetch prunes only after the inactivity period, so a job active at this very instant is kept |
| `Evaluation.IdlePrune` | index.js:470-483 | empty metrics prune a job only when a failed fetch would too, and a job that ran once exactly when a failed fetch would |
| `Evaluation.Activated` | index.js:490-499 | a tick with metrics marks the job running and active now, and uses up one grace tick if any is left |
| `Evaluation.GraceDamping` | index.js:494-499 | a new job's first three ticks with metrics are grace ticks, and every later tick proceeds |
| `Evaluation.PruneAsymmetry` | index.js:466-487 | a job that never ran is stopped after ten minutes of failed fetches but kept through a day of empty metrics |
| `Evaluation.SweptEnvelope` | index.js:542-544 | the walk from the last tier up to the tier after round i's only steps down members of those tiers, accounts usage exactly, changes nothing within budget, and ends within budget or with all of those tiers at their bottom |
| `Evaluation.TurnsBelowEnvelope` | index.js:541-545 | the two turns of the walk (without, then with shutdown) keep the same envelope |
| `Evaluation.DowngradeBeforeDisable` | index.js:541-545 | when the walk without shutdown brings usage within budget, the shutdown walk never runs and no component is switched off |
| `Evaluation.TurnsOnEnvelope` | index.js:548-552 | the two turns on round i's own tier only step down its members, account usage exactly, and end within budget or with that tier at its bottom |
| `Evaluation.AfterRoundEnvelope` | index.js:541-552 | a round touches its own tier only after every lower tier is at its bottom, changes only members of its tier and the lower ones, accounts usage exactly, and ends within budget or with all of those tiers at their bottom |
| `Evaluation.RoundOf` | index.js:530-553 | a round (with its renormalization when there is no limit) only steps down members of its tier and the lower ones, keeps every record attainable from the metrics, and without a limit leaves records outside the tiers at their normalized form; without a limit its usage is the missing bandwidth over 0.95 less exactly the occupied bandwidth it frees, and it ends with nothing missing or with its own and every lower tier at the bottom |
| `Evaluation.LastRoundRenews` | index.js:530-553 | the last round without a limit leaves every record outside the last tier renormalized (never disabled, below its playing bitrate only at 0), and ends with nothing missing or the last tier at the bottom |
| `Evaluation.UnlimitedLastRound` | index.js:530-553 | without a limit, whatever round the loop starts from, it ends as the last round leaves the records: earlier rounds' work outside the last tier is undone |
| `Evaluation.NormalizedRenewed` | index.js:585-602 | a well-formed record, renormalized, is not disabled and has nothing left to claim |
| `Evaluation.Escalated` | index.js:530-553 | the rounds keep every record attainable; without a limit, records outside the tiers stay as fetched, normalized once a round has run (what they do to tiered records without a limit is stated by `Evaluation.UnlimitedLastRound`); with a limit, from the start they only step down tier members, account usage exactly, change nothing within budget, and end within budget or with every tier at its bottom |
| `Evaluation.LimitedRound` | index.js:530-553 | with a limit, a round that starts over budget, finding the tiers at their bottom from the second round on, keeps that envelope |
| `Evaluation.NormalizedIdempotent` | index.js:534-539 | normalizing a normalized record changes nothing, so renormalizing each round only touches what the rounds lowered |
| `Evaluation.Sweep` | index.js:542-544 | the walk loop leaves exactly the records and usage of `Swept` |
| `Evaluation.LowerTurns` | index.js:541-545 | the turn loop over the lower tiers leaves exactly those of `TurnsBelow` |
| `Evaluation.OwnTier` | index.js:548-552 | the turn loop on round i's own tier leaves exactly those of `TurnsOn` |
| `Evaluation.Round` | index.js:541-552 | one round's body leaves exactly those of `AfterRound` |
| `Evaluation.NextRound` | index.js:530-552 | one iteration of the round loop, renormalizing without a limit, leaves exactly those of `RoundOf` and keeps a limit's budget |
| `Evaluation.Escalate` | index.js:530-553 | the round loop leaves exactly the records and usage of `Escalated` from round 1 |
| `Evaluation.FitsMonotone` | index.js:518-521 | with a limit, metrics that take the fast path (no actions) for one limit take it for every larger limit |
| `Evaluation.SentIsOccupied` | index.js:675-694 | the bitrates in the action list sum to the occupied bandwidth of the final records |
| `Evaluation.LoweredActions` | index.js:530-556 | every action lies within its component's starting ladder, and components outside the tiers keep their starting action |
| `Evaluation.BottomActions` | index.js:530-556 | when every tier is at its bottom, every tiered component's action is at the bottom of its ladder |
| `Evaluation.ActionsGranted` | index.js:675-690 | listing records attainable from the metrics gives each component an action of the kind createActionList assigns at a bitrate that is its measured or playing bitrate, a rung, or the disabled marker |
| `Evaluation.ListRegulated` | index.js:530-556 | the action list of the final records meets what the engine promises, with and without a limit |
| `Evaluation.DecisionSends` | index.js:518-557 | when the DMApp does not fit, the decision is the action list of what the rounds leave from the starting records and usage |
| `Evaluation.DecisionRegulated` | index.js:501-557 | nothing is sent exactly when the DMApp fits; what is sent has one action per metrics key in key order, each granted as above; with a limit every action is within its normalized ladder, components outside the tiers keep their normalized action, and the estimate is within the budget unless every tiered component is at its bottom; without a limit components outside the tiers keep their (normalized) action, and no component outside the last tier is disabled or downgraded to anything but 0 |
| `Evaluation.SentRegulated` | index.js:530-557 | the action list of what the rounds leave from the start meets those promises |
| `Evaluation.Regulate` | index.js:501-557 | the measuring, normalizing, fast-path and escalation code computes exactly the decision; nothing is sent exactly when the DMApp fits, and what is sent meets those promises |
| `Evaluation.Respond` | index.js:530-557 | the escalation rounds followed by createActionList produce exactly the decision's list |
| `Evaluation.Evaluate` | index.js:440-582 | one tick: a failed or unusable layout or a failed metrics fetch only prunes after the inactivity period; empty metrics prune by the running or startup period; otherwise the job is marked active and not stopped; no notice during grace; after grace a notice exactly when the DMApp does not fit, addressed to it and carrying the decision |
| `LayoutDB.Put` | layoutDB.js:100-102 | assigning a key keeps the ids distinct; an existing key keeps its place and takes the new priority; a new key goes to the end |
| `LayoutDB.MatchingIn` | layoutDB.js:97-99 | a device contributes exactly its components of the DMApp |
| `LayoutDB.ExtractComponents` | layoutDB.js:93-108 | the double loop builds exactly the object that assigning the DMApp's components in device order builds |
| `LayoutDB.CollectDevice` | layoutDB.js:97-104 | the inner loop assigns exactly the device's components of the DMApp |
| `LayoutDB.PutAllKeys` | layoutDB.js:94-105 | the object's keys are the instance ids in order of first assignment |
| `LayoutDB.PutAllValues` | layoutDB.js:100-102 | every key holds the priority of the last component assigned to it |
| `LayoutDB.NoDevicesNoComponents` | layoutDB.js:94-107 | a layout without devices gives an empty object |
| `LayoutDB.ExtractedComponents` | layoutDB.js:93-108 | the extracted ids are distinct and in order of first appearance, each holding the priority of its last occurrence |
| `LayoutDB.MatchingExactly` | layoutDB.js:95-99 | only components of the DMApp are collected, and every one of them is |
| `Logger.FieldsPrefix` | logger.js:77-90 | the prefix of an object context is empty exactly when it has no keys, and otherwise opens and closes with a space |
| `Logger.Prefix` | logger.js:77-90 | an absent or string context adds no prefix; any prefix opens and closes with a space |
| `Logger.ReplaceQuotes` | logger.js:96 | the length is unchanged, every single quote becomes a double quote, every other character stays, and no single quote is left |
| `Logger.StripLineBreaks` | logger.js:96 | stripping line breaks never lengthens the string |
| `Logger.StripRemovesBreaks` | logger.js:96 | the stripped string holds no CR or LF |
| `Logger.StripWithoutBreaks` | logger.js:96 | a string without breaks is left unchanged |
| `Logger.StripConcat` | logger.js:96 | stripping distributes over concatenation unless a CR ends the first part and an LF starts the second |
| `Logger.OneSpacePerBreak` | logger.js:96 | a CRLF, a lone LF or a lone CR each becomes exactly one space |
| `Logger.FormatLogMsg` | logger.js:76-97 | the line is the context prefix, logmessage:' and the quote-replaced message with a closing quote, line breaks stripped, and it holds no line break |
| `Logger.LineShape` | logger.js:96 | when neither the prefix nor the message holds a break, the line is exactly that concatenation |
| `Logger.AsWrittenLevel` | logger.js:66-68 | a level passing the `in` test is kept and anything else becomes INFO; the test also passes inherited names |
| `Logger.InheritedNameAccepted` | logger.js:66-68 | "toString" passes the `in` test and is stored as a level, which is not one of the four; the corrected rule gives INFO |
| `Logger.EffectiveLevel` | logger.js:29-34 | the stored level is always one of INFO, WARN, ERROR and DEBUG: the requested one when known, INFO otherwise |
| `Logger.LoggerConfig.constructor` | logger.js:36-61 | the default configuration: a console appender, the pattern layout and its pattern, the eight categories with their levels, replaceConsole on |
| `Logger.LoggerConfig.Configure` | logger.js:63-74 | the label is appended to the pattern, every category gets the effective level, and nothing else changes |

## Left out

- I/O and concurrency: the layout database, the time-series store, the websocket push and the scheduler's promise choreography. Their results are parameters of `Evaluation.Evaluate`, which returns the updated options and the notice instead of performing them.
- The clock: `Date.now()` is the parameter `now`.
- stopDMApp: only the resulting stop flag is modelled. Cancelling the scheduled job is not part of this model.
- The options record: the source mutates it in place, while the model returns the updated record from each tick.
- Floating point: bitrates are exact reals, so IEEE rounding and `NaN` or infinite metrics are not modelled.
- Priorities are integers. Fractional priorities, and a fractional or non-numeric `priorityLevels`, are not modelled.
- Metrics are assumed well formed (`Evaluation.MetricsValid`): the metrics keys are distinct and each has a record; every record has a non-empty, ascending video ladder (repeated rungs allowed) whose lowest rung is non-negative, a video bandwidth that is non-negative or the disabled marker -1, and a non-negative playing bitrate. The source guards none of these; a record without a ladder would make it read undefined values, and a negative rung or bitrate is not modelled.
- `Tiering.TierOf`: the tier is computed from the exact quotient. JavaScript evaluates `(p - min) / ((max - min + 1) / levels)` in IEEE doubles, which can land just below a whole number: with 14 levels, a range of 18 and `p - min` = 9, JavaScript gets 6.999… and tier 8, the model gets 7 and tier 7. That rounding is not modelled.
- Integer-like keys: JavaScript puts keys that look like array indices first in iteration order. Keys are modelled in insertion order.
- The `supposed` branch of getBandwidthUsage (`index.js:661-662`): no caller uses it.
- The commented-out realistic-bandwidth skip (`index.js:627-629`) and its constant are not modelled.
- Metric averaging is done by the time-series store, and timeSeries.js is not part of this model.
- `Evaluation.Fits`: with a limit, its postcondition ties the fast path to the rounds' starting point, and `Evaluation.FitsMonotone` states that a larger limit keeps it. Without a limit the fast path compares the measured usage over the safety margin with the sum of the top rungs, and the model states nothing beyond that definition.
- `Evaluation.InitialOptions` has no contract of its own. The grace countdown from those initial options is stated by `Evaluation.GraceDamping`.
- `Logger.FormatLogMsg`: an `Error` message is taken as its stack text, and context values as their string form. A string context only writes a diagnostic to the console, so its prefix is empty.
- `Logger.LoggerConfig.Configure`: a level that is not a string is not modelled. log4js, which consumes the configuration, is not part of this model.
- The other logger helpers (formatLogReqMsg and the other API formatters) are not modelled.

## Findings

| source | as written | input that shows it | evidently intended | confidence | as-written member | corrected member |
|---|---|---|---|---|---|---|
| logger.js:66 | `level in LogLevels` also holds for names the object inherits from `Object.prototype` | `configure("x", "toString")` stores the level "toString" for every category | only INFO, WARN, ERROR and DEBUG are accepted; anything else becomes INFO | not executed | `Logger.AsWrittenLevel`, `Logger.InheritedNameAccepted` | `Logger.EffectiveLevel`, used by `Logger.LoggerConfig.Configure` |

=== FILE: degradation.dfy ===
/** The per-tick metrics snapshot and what the engine does to it: demand
    normalization, the ladder step-down of one priority tier, the usage
    sums and the action list (index.js:584-694). */
module Degradation {
  import opened Stats

  // ---------------------------------------------------------------------
  // The ladder step (index.js:631-646)
  // ---------------------------------------------------------------------

  /** Index of the rung the step-down lands on: the scan starts at the
      second rung and stops at the first rung that is not below v, and the
      rung just before it is taken. */
  function LowerRung(l: seq<real>, v: real): (k: nat)
    requires |l| > 0
    ensures k < |l|
    ensures forall m :: 0 < m <= k ==> l[m] < v
    ensures k + 1 == |l| || l[k + 1] >= v
    decreases |l|
  {
    if |l| == 1 || l[1] >= v then 0 else 1 + LowerRung(l[1..], v)
  }

  /** The scan of index.js:632-634, as the loop the source runs. */
  method FindLowerRung(l: seq<real>, v: real) returns (k: nat)
    requires |l| > 0
    ensures k < |l|
    ensures forall m :: 0 < m <= k ==> l[m] < v
    ensures k + 1 == |l| || l[k + 1] >= v
    ensures k == LowerRung(l, v)
  {
    var j := 1;
    while j < |l| && l[j] < v
      invariant 1 <= j <= |l|
      invariant forall m :: 1 <= m < j ==> l[m] < v
    {
      j := j + 1;
    }
    k := j - 1;
  }

  /** On an ascending ladder a component sitting on rung k (k >= 1) steps
      to a lower rung index: to rung k - 1 exactly when k is 1 (the scan
      never looks at rung 0) or rung k - 1 is strictly below rung k, and
      past the run of rungs equal to rung k otherwise. */
  lemma LowerRungOfRung(l: seq<real>, k: nat)
    requires Ascending(l) && k < |l|
    ensures k > 0 ==> LowerRung(l, l[k]) < k
    ensures k > 0 ==> (LowerRung(l, l[k]) == k - 1 <==> k == 1 || l[k - 1] < l[k])
  {
  }

  /** A component that cannot be stepped down any further: disabled, or at
      the lowest rung of its ladder. */
  predicate Bottom(s: Stat)
  {
    s.videoBandwidth == TURNED_OFF || (|s.videoBitrates| > 0 && s.videoBandwidth == s.videoBitrates[0])
  }

  /** How many more step-downs a component can take; every step that frees
      bandwidth lowers it, which bounds the passes of ConformGroup. */
  function Rank(s: Stat): nat
  {
    if s.videoBandwidth == TURNED_OFF || |s.videoBitrates| == 0 then 0
    else if s.videoBandwidth <= s.videoBitrates[0] then 1
    else 2 + LowerRung(s.videoBitrates, s.videoBandwidth)
  }

  /** b is what the engine may have made of a: only videoBandwidth differs,
      a disabled component stays disabled, and the new value is the old one,
      the disabled marker, or a rung that is below the old value or the
      lowest rung. */
  predicate Descended(a: Stat, b: Stat)
  {
    && b == a.(videoBandwidth := b.videoBandwidth)
    && (a.videoBandwidth == TURNED_OFF ==> b.videoBandwidth == TURNED_OFF)
    && (|| b.videoBandwidth == a.videoBandwidth
        || b.videoBandwidth == TURNED_OFF
        || (&& b.videoBandwidth in a.videoBitrates
            && |a.videoBitrates| > 0
            && (b.videoBandwidth < a.videoBandwidth || b.videoBandwidth == a.videoBitrates[0])))
  }

  lemma DescendedTrans(a: Stat, b: Stat, c: Stat)
    requires WellFormed(a) && Descended(a, b) && Descended(b, c)
    ensures Descended(a, c)
  {
  }

  /** Result of stepping one component: its new record and the bandwidth freed. */
  datatype Outcome = Outcome(stat: Stat, freed: real)

  /** One visit of ConformGroup to a component that has metrics and is not
      disabled (index.js:631-646). */
  function Step(s: Stat, shutdown: bool): (o: Outcome)
    requires WellFormed(s) && s.videoBandwidth != TURNED_OFF
    ensures WellFormed(o.stat) && Descended(s, o.stat)
    ensures o.freed == Occupied(s) - Occupied(o.stat)
    ensures !shutdown ==> o.stat.videoBandwidth != TURNED_OFF
    ensures Rank(o.stat) <= Rank(s) && (o.freed > 0.0 ==> Rank(o.stat) < Rank(s))
    ensures o.freed <= 0.0 ==> Bottom(o.stat)
    ensures Bottom(s) ==> Bottom(o.stat)
  {
    var l := s.videoBitrates;
    var k := LowerRung(l, s.videoBandwidth);
    var diff := s.videoBandwidth - l[k];
    LowerRungOfRung(l, k);
    if diff == 0.0 then
      if shutdown then Outcome(s.(videoBandwidth := TURNED_OFF), s.videoBandwidth)
      else Outcome(s, 0.0)
    else
      Outcome(s.(videoBandwidth := l[k]), diff)
  }

  /** The ladder step on an ascending ladder: above the lowest rung it lands
      on the largest rung strictly below; below the lowest rung it is raised
      to it; at the lowest rung it disables the component when shutdown is
      allowed and otherwise leaves it. */
  lemma StepOnLadder(s: Stat, shutdown: bool)
    requires WellFormed(s) && s.videoBandwidth != TURNED_OFF
    ensures var v, l, w := s.videoBandwidth, s.videoBitrates, Step(s, shutdown).stat.videoBandwidth;
      && (l[0] < v ==> w in l && w < v && forall r <- l :: r < v ==> r <= w)
      && (v < l[0] ==> w == l[0] && Step(s, shutdown).freed < 0.0)
      && (v == l[0] ==> w == (if shutdown then TURNED_OFF else v))
  {
    var v, l := s.videoBandwidth, s.videoBitrates;
    if l[0] < v {
      forall r <- l | r < v
        ensures r <= l[LowerRung(l, v)]
      {
        RungsBelow(l, v, r);
      }
    }
  }

  /** Every rung below v is at most the rung LowerRung picks. */
  lemma RungsBelow(l: seq<real>, v: real, r: real)
    requires |l| > 0 && Ascending(l) && r in l && r < v
    ensures r <= l[LowerRung(l, v)]
  {
    var k := LowerRung(l, v);
    var m :| 0 <= m < |l| && l[m] == r;
    assert m <= k;
    assert m < k ==> l[m] <= l[k];
  }

  // ---------------------------------------------------------------------
  // Demand normalization (index.js:585-602)
  // ---------------------------------------------------------------------

  /** The bandwidth a component claims beyond what was measured; components
      measured at zero are not counted. It is never negative, and where it
      is positive it is exactly what lifts the measured bandwidth to the
      claimed bitrate. */
  function Gap(s: Stat): (g: real)
    ensures g >= 0.0
    ensures g > 0.0 <==> s.videoBandwidth != 0.0 && s.playingVideoBitrate > s.videoBandwidth
    ensures g > 0.0 ==> s.videoBandwidth + g == s.playingVideoBitrate
  {
    if s.videoBandwidth != 0.0 && s.playingVideoBitrate > s.videoBandwidth
    then s.playingVideoBitrate - s.videoBandwidth
    else 0.0
  }

  /** The record with its measured video bandwidth raised to the claimed
      playing bitrate where that is higher. */
  function Normalized(s: Stat): (n: Stat)
    ensures n == s.(videoBandwidth := n.videoBandwidth)
    ensures Gap(s) >= 0.0 && n.videoBandwidth == s.videoBandwidth + Gap(s)
    ensures Gap(n) == 0.0
    ensures WellFormed(s) ==> WellFormed(n)
  {
    if s.videoBandwidth != 0.0 && s.playingVideoBitrate > s.videoBandwidth
    then s.(videoBandwidth := s.playingVideoBitrate)
    else s
  }

  /** The disabled marker is not zero, so normalization raises a disabled
      component back to its playing bitrate. */
  lemma NormalizeRevivesDisabled(s: Stat)
    requires s.videoBandwidth == TURNED_OFF && s.playingVideoBitrate >= 0.0
    ensures Normalized(s).videoBandwidth == s.playingVideoBitrate
    ensures Gap(s) == s.playingVideoBitrate + 1.0
  {
  }

  /** Normalization's total is never negative. */
  lemma {:induction false} GapTotalNonNegative(ids: seq<Id>, stats: map<Id, Stat>)
    requires Covers(ids, stats)
    ensures Total(ids, stats, Gap) >= 0.0
    decreases |ids|
  {
    if ids != [] {
      GapTotalNonNegative(ids[..|ids| - 1], stats);
    }
  }

  // ---------------------------------------------------------------------
  // Actions (index.js:675-694)
  // ---------------------------------------------------------------------

  datatype ActionKind = Nothing | Downgrade | Upgrade | Preserve | Disable

  datatype Action = Action(action: ActionKind, videoBitrate: real)

  /** The action for one component's final record. */
  function ActionFor(s: Stat): (a: Action)
    ensures a.videoBitrate == s.videoBandwidth
    ensures a.action == Disable <==> s.videoBandwidth == TURNED_OFF
    ensures a.action == Downgrade <==> s.videoBandwidth != TURNED_OFF && s.videoBandwidth < s.playingVideoBitrate
    ensures a.action == Nothing <==> s.videoBandwidth != TURNED_OFF && s.videoBandwidth >= s.playingVideoBitrate
    ensures a.action != Upgrade && a.action != Preserve
  {
    if s.videoBandwidth == TURNED_OFF then Action(Disable, s.videoBandwidth)
    else if s.videoBandwidth < s.playingVideoBitrate then Action(Downgrade, s.videoBandwidth)
    else Action(Nothing, s.videoBandwidth)
  }

  function Demand(s: Stat): real { s.bandwidth }

  function Ceiling(s: Stat): real { s.maxBitrate }

  predicate AllBottom(stats: map<Id, Stat>, group: seq<Id>)
  {
    forall id <- group :: id in stats ==> Bottom(stats[id])
  }

  /** What one ConformGroup call may do to a record: step it down
      (touched) or leave it (untouched), never disable it without shutdown,
      and never lift it off the bottom. */
  ghost predicate Evolves(a: Stat, b: Stat, touched: bool, shutdown: bool)
  {
    && WellFormed(b)
    && Descended(a, b)
    && (!touched ==> b == a)
    && (!shutdown && b.videoBandwidth == TURNED_OFF ==> a.videoBandwidth == TURNED_OFF)
    && (Bottom(a) ==> Bottom(b))
  }

  /** The ids of a group, as a set. */
  function Members(group: seq<Id>): (r: set<Id>)
    ensures forall id :: id in r <==> id in group
  {
    set id <- group
  }

  /** s arises from s0 by calls of conformComponentGroup on groups inside
      scope: the same keys, and each record evolves as one such call allows. */
  ghost predicate Lowered(s0: map<Id, Stat>, s: map<Id, Stat>, scope: set<Id>, shutdown: bool)
  {
    && s.Keys == s0.Keys
    && forall id | id in s :: Evolves(s0[id], s[id], id in scope, shutdown)
  }

  lemma LoweredRefl(s: map<Id, Stat>, scope: set<Id>, shutdown: bool)
    requires forall x | x in s :: WellFormed(s[x])
    ensures Lowered(s, s, scope, shutdown)
  {
  }

  lemma LoweredTrans(s0: map<Id, Stat>, s1: map<Id, Stat>, s2: map<Id, Stat>, scope: set<Id>, shutdown: bool)
    requires forall x | x in s0 :: WellFormed(s0[x])
    requires Lowered(s0, s1, scope, shutdown) && Lowered(s1, s2, scope, shutdown)
    ensures Lowered(s0, s2, scope, shutdown)
  {
    forall id | id in s2
      ensures Evolves(s0[id], s2[id], id in scope, shutdown)
    {
      DescendedTrans(s0[id], s1[id], s2[id]);
    }
  }

  lemma LoweredStep(s0: map<Id, Stat>, s: map<Id, Stat>, scope: set<Id>, shutdown: bool, id: Id)
    requires forall x | x in s0 :: WellFormed(s0[x])
    requires Lowered(s0, s, scope, shutdown) && id in s && id in scope && s[id].videoBandwidth != TURNED_OFF
    ensures Lowered(s0, s[id := Step(s[id], shutdown).stat], scope, shutdown)
  {
    DescendedTrans(s0[id], s[id], Step(s[id], shutdown).stat);
  }

  lemma AllBottomExtend(s: map<Id, Stat>, visited: seq<Id>, id: Id)
    requires AllBottom(s, visited) && (id in s ==> Bottom(s[id]))
    ensures AllBottom(s, visited + [id])
  {
  }

  lemma AllBottomStep(s: map<Id, Stat>, visited: seq<Id>, id: Id, next: Stat)
    requires AllBottom(s, visited) && id in s && Bottom(next)
    ensures AllBottom(s[id := next], visited + [id])
  {
  }

  // ---------------------------------------------------------------------
  // conformComponentGroup as functions (index.js:605-653)
  // ---------------------------------------------------------------------

  /** Records keyed by the ids of order, each one a record the engine can
      work on: the shape of a metrics object. */
  ghost predicate Keyed(order: seq<Id>, stats: map<Id, Stat>)
  {
    && Distinct(order)
    && (forall id :: id in stats <==> id in order)
    && (forall id | id in stats :: WellFormed(stats[id]))
  }

  /** Replacing one record by a well-formed one keeps the snapshot keyed. */
  lemma KeyedUpdate(order: seq<Id>, stats: map<Id, Stat>, id: Id, next: Stat)
    requires Keyed(order, stats) && id in stats && WellFormed(next)
    ensures Keyed(order, stats[id := next])
  {
  }

  /** The records together with the usage figure the engine carries along. */
  datatype Load = Load(stats: map<Id, Stat>, usage: real)

  /** Where a pass stands: the records, the usage, and whether a visit has
      freed bandwidth. */
  datatype PassState = PassState(stats: map<Id, Stat>, usage: real, changed: bool)

  /** One visit of the inner loop (index.js:624-646): nothing once usage
      fits the budget or when the member has no record or is disabled;
      otherwise one Step, with the usage falling by what it frees. */
  function Advance(p: PassState, id: Id, budget: real, shutdown: bool): (q: PassState)
    requires forall x | x in p.stats :: WellFormed(p.stats[x])
    ensures q.stats.Keys == p.stats.Keys && forall x | x in q.stats :: WellFormed(q.stats[x])
  {
    if p.usage <= budget || id !in p.stats || p.stats[id].videoBandwidth == TURNED_OFF then p
    else
      var o := Step(p.stats[id], shutdown);
      PassState(p.stats[id := o.stat], p.usage - o.freed, p.changed || o.freed > 0.0)
  }

  /** The first n visits of one pass of the inner loop (index.js:611-649):
      while usage is over the budget, each member that has a record and is
      not disabled takes one Step, and the usage falls by what it frees. */
  function PassOver(stats: map<Id, Stat>, group: seq<Id>, n: nat, usage: real, budget: real, shutdown: bool)
    : (p: PassState)
    requires n <= |group| && forall x | x in stats :: WellFormed(stats[x])
    ensures p.stats.Keys == stats.Keys && forall x | x in p.stats :: WellFormed(p.stats[x])
    decreases n
  {
    if n == 0 then PassState(stats, usage, false)
    else Advance(PassOver(stats, group, n - 1, usage, budget, shutdown), group[n - 1], budget, shutdown)
  }

  lemma PassVisited(stats: map<Id, Stat>, group: seq<Id>, n: nat, usage: real, budget: real, shutdown: bool)
    requires n < |group| && forall x | x in stats :: WellFormed(stats[x])
    requires var p := PassOver(stats, group, n, usage, budget, shutdown);
      p.usage > budget && group[n] in p.stats && p.stats[group[n]].videoBandwidth != TURNED_OFF
    ensures var p := PassOver(stats, group, n, usage, budget, shutdown);
      var o := Step(p.stats[group[n]], shutdown);
      PassOver(stats, group, n + 1, usage, budget, shutdown)
        == PassState(p.stats[group[n] := o.stat], p.usage - o.freed, p.changed || o.freed > 0.0)
  {
  }

  lemma PassSkipped(stats: map<Id, Stat>, group: seq<Id>, n: nat, usage: real, budget: real, shutdown: bool)
    requires n < |group| && forall x | x in stats :: WellFormed(stats[x])
    requires var p := PassOver(stats, group, n, usage, budget, shutdown);
      p.usage <= budget || group[n] !in p.stats || p.stats[group[n]].videoBandwidth == TURNED_OFF
    ensures PassOver(stats, group, n + 1, usage, budget, shutdown) == PassOver(stats, group, n, usage, budget, shutdown)
  {
  }

  /** Once usage fits the budget the rest of the pass visits nothing. */
  lemma {:induction false} PassSettles(stats: map<Id, Stat>, group: seq<Id>, i: nat, n: nat, usage: real,
                                       budget: real, shutdown: bool)
    requires i <= n <= |group| && forall x | x in stats :: WellFormed(stats[x])
    requires PassOver(stats, group, i, usage, budget, shutdown).usage <= budget
    ensures PassOver(stats, group, n, usage, budget, shutdown) == PassOver(stats, group, i, usage, budget, shutdown)
    decreases n
  {
    if n > i {
      PassSettles(stats, group, i, n - 1, usage, budget, shutdown);
    }
  }

  /** conformComponentGroup (index.js:605-653) as a function: whole passes
      over the group until usage fits the budget or a pass frees nothing.
      The sort of index.js:608 compares fields of the id strings, which are
      undefined: every comparison is NaN, so the group keeps its order. */
  function Conform(order: seq<Id>, stats: map<Id, Stat>, group: seq<Id>, usage: real, budget: real,
                   shutdown: bool): (r: Load)
    requires Keyed(order, stats)
    ensures Keyed(order, r.stats)
    decreases Count(order, stats, Rank)
  {
    if usage <= budget then Load(stats, usage)
    else
      var p := PassOver(stats, group, |group|, usage, budget, shutdown);
      PassEnvelope(order, stats, group, |group|, usage, budget, shutdown);
      if !p.changed then Load(p.stats, p.usage)
      else Conform(order, p.stats, group, p.usage, budget, shutdown)
  }

  /** What one visit of group[i] does to the records, the sums over them
      and the bottom-so-far fact of a pass. */
  lemma VisitAccounts(order: seq<Id>, s0: map<Id, Stat>, before: map<Id, Stat>, group: seq<Id>, i: int,
                      shutdown: bool, changed: bool)
    requires Keyed(order, before)
    requires forall x | x in s0 :: WellFormed(s0[x])
    requires Lowered(s0, before, Members(group), shutdown)
    requires 0 <= i < |group| && group[i] in before && before[group[i]].videoBandwidth != TURNED_OFF
    requires !changed ==> AllBottom(before, group[..i])
    ensures var o := Step(before[group[i]], shutdown);
      var after := before[group[i] := o.stat];
      && Keyed(order, after)
      && Lowered(s0, after, Members(group), shutdown)
      && Total(order, after, Occupied) == Total(order, before, Occupied) - o.freed
      && Count(order, after, Rank) <= Count(order, before, Rank)
      && (o.freed > 0.0 ==> Count(order, after, Rank) < Count(order, before, Rank))
      && (!changed && o.freed <= 0.0 ==> AllBottom(after, group[..i + 1]))
  {
    var id := group[i];
    var o := Step(before[id], shutdown);
    LoweredStep(s0, before, Members(group), shutdown, id);
    if !changed && o.freed <= 0.0 {
      AllBottomStep(before, group[..i], id, o.stat);
      assert group[..i + 1] == group[..i] + [id];
    }
    TotalUpdate(order, before, Occupied, id, o.stat);
    CountUpdate(order, before, Rank, id, o.stat);
  }

  /** What the first n visits of a pass, ending in p, do: members of the
      group step down as Lowered allows and the other records stay; usage
      falls by exactly the bandwidth freed; a start within budget is left
      alone; the rank sum never rises and falls when a visit freed
      bandwidth; and a pass that freed nothing stopped because usage fits or
      because every visited member is at its bottom. */
  ghost predicate PassBound(order: seq<Id>, stats: map<Id, Stat>, group: seq<Id>, n: nat, usage: real,
                            budget: real, shutdown: bool, p: PassState)
    requires Keyed(order, stats) && n <= |group|
  {
    && Keyed(order, p.stats)
    && Lowered(stats, p.stats, Members(group), shutdown)
    && p.usage == usage - (Total(order, stats, Occupied) - Total(order, p.stats, Occupied))
    && (usage <= budget ==> p == PassState(stats, usage, false))
    && Count(order, p.stats, Rank) <= Count(order, stats, Rank)
    && (p.changed ==> Count(order, p.stats, Rank) < Count(order, stats, Rank))
    && (!p.changed ==> p.usage <= budget || AllBottom(p.stats, group[..n]))
  }

  lemma PassStart(order: seq<Id>, stats: map<Id, Stat>, group: seq<Id>, usage: real, budget: real, shutdown: bool)
    requires Keyed(order, stats)
    ensures PassBound(order, stats, group, 0, usage, budget, shutdown, PassOver(stats, group, 0, usage, budget, shutdown))
  {
    LoweredRefl(stats, Members(group), shutdown);
  }

  lemma PassNext(stats: map<Id, Stat>, group: seq<Id>, n: nat, usage: real, budget: real, shutdown: bool)
    requires 0 < n <= |group| && forall x | x in stats :: WellFormed(stats[x])
    ensures PassOver(stats, group, n, usage, budget, shutdown)
      == Advance(PassOver(stats, group, n - 1, usage, budget, shutdown), group[n - 1], budget, shutdown)
  {
  }

  /** One more visit keeps PassBound. */
  lemma AdvanceBound(order: seq<Id>, stats: map<Id, Stat>, group: seq<Id>, n: nat, usage: real, budget: real,
                     shutdown: bool, p: PassState)
    requires Keyed(order, stats) && 0 < n <= |group|
    requires PassBound(order, stats, group, n - 1, usage, budget, shutdown, p)
    ensures PassBound(order, stats, group, n, usage, budget, shutdown, Advance(p, group[n - 1], budget, shutdown))
  {
    var id := group[n - 1];
    if p.usage <= budget || id !in p.stats || p.stats[id].videoBandwidth == TURNED_OFF {
      if !p.changed && p.usage > budget {
        AllBottomExtend(p.stats, group[..n - 1], id);
        assert group[..n] == group[..n - 1] + [id];
      }
    } else {
      VisitAccounts(order, stats, p.stats, group, n - 1, shutdown, p.changed);
    }
  }

  /** Every prefix of a pass keeps PassBound. */
  lemma {:induction false} PassEnvelope(order: seq<Id>, stats: map<Id, Stat>, group: seq<Id>, n: nat,
                                        usage: real, budget: real, shutdown: bool)
    requires Keyed(order, stats) && n <= |group|
    ensures PassBound(order, stats, group, n, usage, budget, shutdown, PassOver(stats, group, n, usage, budget, shutdown))
    decreases n
  {
    if n == 0 {
      PassStart(order, stats, group, usage, budget, shutdown);
    } else {
      PassEnvelope(order, stats, group, n - 1, usage, budget, shutdown);
      PassNext(stats, group, n, usage, budget, shutdown);
      AdvanceBound(order, stats, group, n, usage, budget, shutdown, PassOver(stats, group, n - 1, usage, budget, shutdown));
    }
  }

  /** What conformComponentGroup does, in the large: members of the group
      step down their ladders (never disabled without shutdown, never lifted
      off the bottom) and nothing else changes; the returned usage is the
      old one less the bandwidth freed; a call within budget changes
      nothing; and it returns over budget only with every member of the
      group at its bottom. */
  lemma {:induction false} ConformEnvelope(order: seq<Id>, stats: map<Id, Stat>, group: seq<Id>, usage: real,
                                           budget: real, shutdown: bool)
    requires Keyed(order, stats)
    ensures var r := Conform(order, stats, group, usage, budget, shutdown);
      && Lowered(stats, r.stats, Members(group), shutdown)
      && r.usage == usage - (Total(order, stats, Occupied) - Total(order, r.stats, Occupied))
      && (usage <= budget ==> r == Load(stats, usage))
      && (r.usage <= budget || AllBottom(r.stats, group))
    decreases Count(order, stats, Rank)
  {
    if usage <= budget {
      LoweredRefl(stats, Members(group), shutdown);
    } else {
      var p := PassOver(stats, group, |group|, usage, budget, shutdown);
      PassEnvelope(order, stats, group, |group|, usage, budget, shutdown);
      assert group[..|group|] == group;
      if p.changed {
        var r := Conform(order, p.stats, group, p.usage, budget, shutdown);
        ConformEnvelope(order, p.stats, group, p.usage, budget, shutdown);
        LoweredTrans(stats, p.stats, r.stats, Members(group), shutdown);
      }
    }
  }

  /** The action list createActionList builds from the records, in key
      order. */
  function ActionList(order: seq<Id>, stats: map<Id, Stat>): seq<(Id, Action)>
    requires Covers(order, stats)
  {
    seq(|order|, k requires 0 <= k < |order| => (order[k], ActionFor(stats[order[k]])))
  }

  // ---------------------------------------------------------------------
  // The snapshot the tick works on, updated in place
  // ---------------------------------------------------------------------

  /** The metrics object of one tick: its keys in iteration order and the
      record of each key. */
  class Snapshot {
    var order: seq<Id>
    var stats: map<Id, Stat>

    ghost predicate Valid()
      reads this
    {
      Keyed(order, stats)
    }

    constructor (order: seq<Id>, stats: map<Id, Stat>)
      requires Keyed(order, stats)
      ensures Valid() && this.order == order && this.stats == stats
    {
      this.order := order;
      this.stats := stats;
    }

    /** getBandwidthUsage (index.js:656-668): the sum of the maxBitrate
        fields when max is set, otherwise of the bandwidth fields (video plus
        audio, as the store computes them). */
    method BandwidthUsage(max: bool) returns (usage: real)
      requires Valid()
      ensures usage == Total(order, stats, if max then Ceiling else Demand)
    {
      var f := if max then Ceiling else Demand;
      usage := 0.0;
      var k := 0;
      while k < |order|
        invariant 0 <= k <= |order|
        invariant Covers(order[..k], stats)
        invariant usage == Total(order[..k], stats, f)
      {
        assert order[..k + 1][..k] == order[..k];
        if max {
          usage := usage + stats[order[k]].maxBitrate;
        } else {
          usage := usage + stats[order[k]].bandwidth;
        }
        k := k + 1;
      }
      assert order[..k] == order;
    }

    /** normalizeComponents (index.js:585-602): raises each non-zero video
        bandwidth below the playing bitrate to that bitrate and returns the
        sum of the raises. */
    method Normalize() returns (total: real)
      requires Valid()
      modifies this
      ensures Valid() && order == old(order) && stats.Keys == old(stats).Keys
      ensures forall id | id in stats :: stats[id] == Normalized(old(stats)[id])
      ensures total == Total(order, old(stats), Gap) && total >= 0.0
    {
      ghost var s0 := stats;
      total := 0.0;
      var k := 0;
      while k < |order|
        invariant 0 <= k <= |order| && order == old(order) && stats.Keys == s0.Keys
        invariant forall i :: 0 <= i < k ==> stats[order[i]] == Normalized(s0[order[i]])
        invariant forall i :: k <= i < |order| ==> stats[order[i]] == s0[order[i]]
        invariant Covers(order[..k], s0)
        invariant total == Total(order[..k], s0, Gap) && total >= 0.0
      {
        total := NormalizeAt(k, s0, total);
        k := k + 1;
      }
      assert order[..k] == order;
      forall id | id in stats
        ensures stats[id] == Normalized(s0[id])
      {
        var i :| 0 <= i < |order| && order[i] == id;
      }
    }

    /** One iteration of normalizeComponents: raises the record at
        position k to its claimed playing bitrate where that is higher. */
    method NormalizeAt(k: int, ghost s0: map<Id, Stat>, total0: real) returns (total: real)
      requires 0 <= k < |order| && Distinct(order) && (forall id :: id in s0 <==> id in order)
      requires stats.Keys == s0.Keys
      requires forall i :: 0 <= i < k ==> stats[order[i]] == Normalized(s0[order[i]])
      requires forall i :: k <= i < |order| ==> stats[order[i]] == s0[order[i]]
      requires Covers(order[..k], s0) && total0 == Total(order[..k], s0, Gap)
      modifies this
      ensures order == old(order) && stats.Keys == s0.Keys
      ensures forall i :: 0 <= i < k + 1 ==> stats[order[i]] == Normalized(s0[order[i]])
      ensures forall i :: k + 1 <= i < |order| ==> stats[order[i]] == s0[order[i]]
      ensures Covers(order[..k + 1], s0) && total == Total(order[..k + 1], s0, Gap) && total >= total0
    {
      var id := order[k];
      var stat := stats[id];
      assert order[..k + 1][..k] == order[..k];
      assert Total(order[..k + 1], s0, Gap) == total0 + Gap(stat);
      assert forall i :: 0 <= i < |order| && i != k ==> order[i] != id;
      total := total0;
      if stat.videoBandwidth != 0.0 {
        var diff := stat.playingVideoBitrate - stat.videoBandwidth;
        if diff > 0.0 {
          total := total + diff;
          stats := stats[id := stat.(videoBandwidth := stat.playingVideoBitrate)];
        }
      }
    }

    /** conformComponentGroup (index.js:605-653): passes over the group
        until usage fits the budget or a whole pass frees nothing. */
    method ConformGroup(group: seq<Id>, usage0: real, budget: real, shutdown: bool) returns (usage: real)
      requires Valid()
      modifies this
      ensures Valid() && order == old(order)
      ensures Load(stats, usage) == Conform(order, old(stats), group, usage0, budget, shutdown)
    {
      ghost var target := Conform(order, stats, group, usage0, budget, shutdown);
      var changed := true;
      // index.js:608 compares fields of the id strings, which are undefined:
      // every comparison is NaN, so the sorted copy keeps the group's order
      var sortedGroup := group;
      usage := usage0;
      while changed && usage > budget
        invariant Valid() && order == old(order)
        invariant changed ==> Conform(order, stats, group, usage, budget, shutdown) == target
        invariant !changed ==> Load(stats, usage) == target
        decreases Count(order, stats, Rank), if changed then 1 else 0
      {
        PassEnvelope(order, stats, sortedGroup, |sortedGroup|, usage, budget, shutdown);
        usage, changed := Pass(sortedGroup, usage, budget, shutdown);
      }
    }

    /** One pass of the inner loop of conformComponentGroup
        (index.js:611-649): visits the members in order while usage is over
        the budget, and reports whether any visit freed bandwidth. */
    method Pass(group: seq<Id>, usage0: real, budget: real, shutdown: bool) returns (usage: real, changed: bool)
      requires Valid()
      modifies this
      ensures Valid() && order == old(order)
      ensures PassState(stats, usage, changed) == PassOver(old(stats), group, |group|, usage0, budget, shutdown)
    {
      ghost var s0 := stats;
      changed := false;
      usage := usage0;
      var i := 0;
      while i < |group| && usage > budget
        invariant 0 <= i <= |group|
        invariant Valid() && order == old(order)
        invariant PassState(stats, usage, changed) == PassOver(s0, group, i, usage0, budget, shutdown)
      {
        usage, changed := PassVisit(group, i, s0, usage0, budget, shutdown, usage, changed);
        i := i + 1;
      }
      if i < |group| {
        PassSettles(s0, group, i, |group|, usage0, budget, shutdown);
      }
    }

    /** One iteration of the pass: members without metrics and disabled
        members are skipped, the others visited. */
    method PassVisit(group: seq<Id>, i: int, ghost s0: map<Id, Stat>, ghost usage0: real, budget: real,
                     shutdown: bool, usage1: real, changed1: bool) returns (usage: real, changed: bool)
      requires Valid() && 0 <= i < |group| && usage1 > budget
      requires forall x | x in s0 :: WellFormed(s0[x])
      requires PassState(stats, usage1, changed1) == PassOver(s0, group, i, usage0, budget, shutdown)
      modifies this
      ensures Valid() && order == old(order)
      ensures PassState(stats, usage, changed) == PassOver(s0, group, i + 1, usage0, budget, shutdown)
    {
      var id := group[i];
      usage, changed := usage1, changed1;
      if id in stats && stats[id].videoBandwidth != TURNED_OFF {
        var freed := Visit(id, shutdown);
        usage := usage - freed;
        changed := changed || freed > 0.0;
        PassVisited(s0, group, i, usage0, budget, shutdown);
      } else {
        PassSkipped(s0, group, i, usage0, budget, shutdown);
      }
    }

    /** One visit of a member that has metrics and is not disabled
        (index.js:631-646). */
    method Visit(id: Id, shutdown: bool) returns (freed: real)
      requires Valid() && id in stats && stats[id].videoBandwidth != TURNED_OFF
      modifies this
      ensures Valid() && order == old(order)
      ensures stats == old(stats)[id := Step(old(stats)[id], shutdown).stat]
      ensures freed == Step(old(stats)[id], shutdown).freed
    {
      var stat := stats[id];
      var j := FindLowerRung(stat.videoBitrates, stat.videoBandwidth);
      freed := stat.videoBandwidth - stat.videoBitrates[j];
      var next := stat;
      if freed == 0.0 {
        if shutdown {
          freed := stat.videoBandwidth;
          next := stat.(videoBandwidth := TURNED_OFF);
        }
      } else {
        next := stat.(videoBandwidth := stat.videoBitrates[j]);
      }
      assert Outcome(next, freed) == Step(stat, shutdown);
      KeyedUpdate(order, stats, id, next);
      stats := stats[id := next];
    }

    /** createActionList (index.js:675-694): one action per key of the
        snapshot, in key order. */
    method CreateActionList() returns (actions: seq<(Id, Action)>)
      requires Valid()
      ensures |actions| == |order|
      ensures forall k :: 0 <= k < |order| ==> actions[k] == (order[k], ActionFor(stats[order[k]]))
      ensures actions == ActionList(order, stats)
    {
      actions := [];
      var k := 0;
      while k < |order|
        invariant 0 <= k <= |order|
        invariant |actions| == k
        invariant forall i :: 0 <= i < k ==> actions[i] == (order[i], ActionFor(stats[order[i]]))
      {
        var stat := stats[order[k]];
        var action := Action(Nothing, stat.videoBandwidth);
        if stat.videoBandwidth == TURNED_OFF {
          action := action.(action := Disable);
        } else if stat.videoBandwidth < stat.playingVideoBitrate {
          action := action.(action := Downgrade);
        }
        actions := actions + [(order[k], action)];
        k := k + 1;
      }
    }
  }
}

=== FILE: evaluation.dfy ===
/** evaluateDMApp (index.js:440-582): one tick of a DMApp's background job.
    The layout and metrics fetches and the clock are parameters; the job's
    options record is passed in and the updated record returned. */
module Evaluation {
  import opened Stats
  import opened Degradation
  import opened Tiering

  /** Ticks a DMApp is left alone once it has metrics (index.js:41). */
  const GRACE_COUNT: int := 3
  /** Milliseconds without activity before a running DMApp is pruned (index.js:44). */
  const DEAD_INACTIVITY_PERIOD: int := 1000 * 60 * 10
  /** Milliseconds a DMApp that never produced metrics is kept (index.js:47). */
  const NEVER_STARTED_PERIOD: int := 1000 * 60 * 60 * 24
  /** Share of the available bandwidth the engine aims for (index.js:53). */
  const BANDWIDTH_LIMIT_SAFETY: real := 0.95

  /** The job options the scheduler keeps between ticks. */
  datatype Options = Options(grace: int, startedRunning: bool, lastActive: int)

  /** The options a newly launched job starts with (index.js:339-343). */
  function InitialOptions(now: int): Options
  {
    Options(GRACE_COUNT, false, now)
  }

  /** The job data: the DMApp, its optional bandwidth limit and tier count. */
  datatype Session = Session(dmappId: Id, availableBandwidth: Option<real>, priorityLevels: Option<int>)

  /** The outcome of a store query: a rejected promise or a value. */
  datatype Fetch<T> = Failed | Fetched(value: T)

  /** The metrics object of one tick: keys in iteration order and records. */
  datatype Metrics = Metrics(order: seq<Id>, stats: map<Id, Stat>)

  /** Keys without repeats, one record per key, each record well formed. */
  ghost predicate MetricsValid(m: Metrics)
  {
    Keyed(m.order, m.stats)
  }

  /** The message pushed to the DMApp's room: {DMAppId: {actions}}. */
  datatype Notice = Notice(dmappId: Id, actions: seq<(Id, Action)>)

  /** What a tick leaves behind: the options, whether the job is stopped,
      and the notice it sends, if any. */
  datatype Tick = Tick(options: Options, stop: bool, notice: Option<Notice>)

  // ---------------------------------------------------------------------
  // Pruning and the grace period (index.js:466-499, 560-580)
  // ---------------------------------------------------------------------

  /** A failed fetch stops the job once the DMApp has been quiet for the
      inactivity period; a job active at this very instant is kept. */
  predicate FetchFailurePrune(opts: Options, now: int): (r: bool)
    ensures now <= opts.lastActive ==> !r
  {
    now - opts.lastActive >= DEAD_INACTIVITY_PERIOD
  }

  /** Empty metrics stop a job that ran once after the inactivity period,
      and one that never ran after the startup period; either way a job
      so pruned would also have been pruned on a failed fetch. */
  predicate IdlePrune(opts: Options, now: int): (r: bool)
    ensures r ==> FetchFailurePrune(opts, now)
    ensures opts.startedRunning ==> (r <==> FetchFailurePrune(opts, now))
  {
    || (opts.startedRunning && now - opts.lastActive >= DEAD_INACTIVITY_PERIOD)
    || (!opts.startedRunning && now - opts.lastActive >= NEVER_STARTED_PERIOD)
  }

  /** The options after a tick that found metrics: marked running, active
      now, one grace tick used up if any was left. */
  function Activated(opts: Options, now: int): (o: Options)
    ensures o.startedRunning && o.lastActive == now
    ensures o.grace == if opts.grace > 0 then opts.grace - 1 else opts.grace
  {
    var o := opts.(startedRunning := true, lastActive := now);
    if opts.grace > 0 then o.(grace := opts.grace - 1) else o
  }

  /** A new job waits three ticks with metrics before it acts, and acts on
      every tick after that. */
  lemma GraceDamping(t0: int, t1: int, t2: int, t3: int, t4: int)
    ensures var o0 := InitialOptions(t0);
      var o1 := Activated(o0, t1);
      var o2 := Activated(o1, t2);
      var o3 := Activated(o2, t3);
      && o0.grace > 0 && o1.grace > 0 && o2.grace > 0
      && o3.grace == 0 && Activated(o3, t4).grace == 0
  {
  }

  /** A job that never ran is pruned after ten minutes of failed fetches
      but only after a day of empty metrics. */
  lemma PruneAsymmetry(opts: Options, now: int)
    requires !opts.startedRunning
    requires DEAD_INACTIVITY_PERIOD <= now - opts.lastActive < NEVER_STARTED_PERIOD
    ensures FetchFailurePrune(opts, now) && !IdlePrune(opts, now)
  {
  }

  // ---------------------------------------------------------------------
  // Escalation over the tiers (index.js:530-553), as functions
  // ---------------------------------------------------------------------

  /** The loop of index.js:542-544 as a function: conformComponentGroup on
      tiers j - 1 down to i (0-based), one after another, while usage is
      over the budget. */
  function Swept(order: seq<Id>, s: Load, tiers: seq<seq<Id>>, i: nat, j: int, budget: real, shutdown: bool)
    : (r: Load)
    requires Keyed(order, s.stats) && j <= |tiers|
    ensures Keyed(order, r.stats)
    decreases j
  {
    if j <= i || s.usage <= budget then s
    else Swept(order, Conform(order, s.stats, tiers[j - 1], s.usage, budget, shutdown), tiers, i, j - 1, budget, shutdown)
  }

  /** The two turns of index.js:541-545 over the tiers below round i's own:
      the sweep without shutdown, then, while usage is still over the
      budget, the sweep with shutdown. */
  function TurnsBelow(order: seq<Id>, s: Load, tiers: seq<seq<Id>>, i: nat, budget: real): (r: Load)
    requires Keyed(order, s.stats)
    ensures Keyed(order, r.stats)
  {
    if s.usage <= budget then s
    else
      var a := Swept(order, s, tiers, i, |tiers|, budget, false);
      if a.usage <= budget then a else Swept(order, a, tiers, i, |tiers|, budget, true)
  }

  /** The two turns of index.js:549-551 on round i's own tier, tiers[i - 1]. */
  function TurnsOn(order: seq<Id>, s: Load, tiers: seq<seq<Id>>, i: nat, budget: real): (r: Load)
    requires Keyed(order, s.stats) && 1 <= i <= |tiers|
    ensures Keyed(order, r.stats)
  {
    if s.usage <= budget then s
    else
      var a := Conform(order, s.stats, tiers[i - 1], s.usage, budget, false);
      if a.usage <= budget then a else Conform(order, a.stats, tiers[i - 1], a.usage, budget, true)
  }

  /** Round i after the optional renormalization (index.js:541-552): the
      turns below, then, while usage is still over the budget, the turns on
      its own tier. */
  function AfterRound(order: seq<Id>, s: Load, tiers: seq<seq<Id>>, i: nat, budget: real): (r: Load)
    requires Keyed(order, s.stats) && 1 <= i <= |tiers|
    ensures Keyed(order, r.stats)
  {
    var a := TurnsBelow(order, s, tiers, i, budget);
    if a.usage > budget then TurnsOn(order, a, tiers, i, budget) else a
  }

  /** Round i of index.js:530-553. Without a limit it first renormalizes
      and then works on the missing bandwidth over the safety margin against
      a budget of 0 (index.js:534-539): the usage it ends with is that
      missing bandwidth less what the round frees, and it ends with nothing
      missing or with its own and the lower tiers at their bottom. */
  function RoundOf(order: seq<Id>, s: Load, tiers: seq<seq<Id>>, hasLimit: bool, budget: real, i: nat): (r: Load)
    requires Keyed(order, s.stats) && 1 <= i <= |tiers|
    ensures Keyed(order, r.stats)
    ensures Lowered(if hasLimit then s.stats else NormalizeAll(s.stats), r.stats, Scope(tiers, i - 1), true)
    ensures AllAttainable(s.stats, r.stats)
    ensures !hasLimit ==> Renormalized(s.stats, r.stats, Scope(tiers, 0), true)
    ensures !hasLimit ==>
      r.usage == Total(order, s.stats, Gap) / BANDWIDTH_LIMIT_SAFETY
                 - (Total(order, NormalizeAll(s.stats), Occupied) - Total(order, r.stats, Occupied))
    ensures !hasLimit ==> r.usage <= 0.0 || TiersBottom(r.stats, tiers, i - 1)
  {
    if hasLimit then
      AfterRoundEnvelope(order, s, tiers, i, budget);
      AllAttainableRefl(s.stats);
      AllAttainableLowered(s.stats, s.stats, AfterRound(order, s, tiers, i, budget).stats, Scope(tiers, i - 1));
      AfterRound(order, s, tiers, i, budget)
    else
      NormalizeAllKeyed(order, s.stats);
      var n := Load(NormalizeAll(s.stats), Total(order, s.stats, Gap) / BANDWIDTH_LIMIT_SAFETY);
      var r := AfterRound(order, n, tiers, i, 0.0);
      AfterRoundEnvelope(order, n, tiers, i, 0.0);
      AllAttainableRefl(s.stats);
      AllAttainableNormalized(s.stats, s.stats);
      AllAttainableLowered(s.stats, n.stats, r.stats, Scope(tiers, i - 1));
      RoundKeepsOutside(s.stats, n.stats, r.stats, tiers, i);
      r
  }

  /** The round loop of index.js:530-553 from round i on: rounds run up to
      the number of tiers while there is no limit or usage is over the
      budget. Every record stays attainable from its original; without a
      limit, records outside the tiers stay as they were, renormalized once
      some round has run. */
  function Escalated(order: seq<Id>, s: Load, tiers: seq<seq<Id>>, hasLimit: bool, budget: real, i: nat): (r: Load)
    requires Keyed(order, s.stats) && 1 <= i
    ensures Keyed(order, r.stats)
    ensures AllAttainable(s.stats, r.stats)
    ensures !hasLimit ==> Renormalized(s.stats, r.stats, Scope(tiers, 0), i <= |tiers|)
    ensures hasLimit && (i > 1 ==> s.usage <= budget || TiersBottom(s.stats, tiers, 0)) ==>
      Curbed(order, s, r, tiers, budget)
    decreases |tiers| + 1 - i
  {
    if i > |tiers| || (hasLimit && s.usage <= budget) then
      AllAttainableRefl(s.stats);
      LoweredRefl(s.stats, Scope(tiers, 0), true);
      s
    else
      var a := RoundOf(order, s, tiers, hasLimit, budget, i);
      var r := Escalated(order, a, tiers, hasLimit, budget, i + 1);
      AllAttainableTrans(s.stats, a.stats, r.stats);
      if !hasLimit then
        RenormalizedTrans(s.stats, a.stats, r.stats, Scope(tiers, 0), i + 1 <= |tiers|);
        r
      else
        LimitedRound(order, s, tiers, budget, i);
        CurbedTrans(order, s, a, r, tiers, budget);
        r
  }

  /** A record that went through a renormalization is never disabled, and
      is below its playing bitrate only at 0. */
  predicate Renewed(s: Stat)
  {
    s.videoBandwidth != TURNED_OFF && Gap(s) == 0.0
  }

  /** What the last round without a limit leaves: every record outside the
      last tier renewed, and no bandwidth missing or the last tier at its
      bottom. */
  ghost predicate LastRoundDone(r: Load, tiers: seq<seq<Id>>)
    requires |tiers| > 0
  {
    && (forall id | id in r.stats && id !in Scope(tiers, |tiers| - 1) :: Renewed(r.stats[id]))
    && (r.usage <= 0.0 || AllBottom(r.stats, tiers[|tiers| - 1]))
  }

  /** Without a limit every round starts by renormalizing every record, so
      only the last round's work lasts: from any round i on, the rounds end
      as the last round leaves them. */
  lemma {:induction false} UnlimitedLastRound(order: seq<Id>, s: Load, tiers: seq<seq<Id>>, budget: real, i: nat, r: Load)
    requires Keyed(order, s.stats) && 1 <= i <= |tiers|
    requires r == Escalated(order, s, tiers, false, budget, i)
    ensures LastRoundDone(r, tiers)
    decreases |tiers| - i
  {
    if i == |tiers| {
      LastEscalation(order, s, tiers, budget);
    } else {
      var a := RoundOf(order, s, tiers, false, budget, i);
      EscalatedUnfold(order, s, tiers, false, budget, i);
      UnlimitedLastRound(order, a, tiers, budget, i + 1, r);
    }
  }

  /** From the last round on, the rounds are the last round alone. */
  lemma LastEscalation(order: seq<Id>, s: Load, tiers: seq<seq<Id>>, budget: real)
    requires Keyed(order, s.stats) && 1 <= |tiers|
    ensures LastRoundDone(Escalated(order, s, tiers, false, budget, |tiers|), tiers)
  {
    EscalatedUnfold(order, s, tiers, false, budget, |tiers|);
    assert Escalated(order, s, tiers, false, budget, |tiers|) == RoundOf(order, s, tiers, false, budget, |tiers|);
    LastRoundRenews(order, s, tiers, budget);
  }

  /** The last round without a limit renews every record outside the last
      tier, and frees the missing bandwidth or brings the last tier to its
      bottom. */
  lemma LastRoundRenews(order: seq<Id>, s: Load, tiers: seq<seq<Id>>, budget: real)
    requires Keyed(order, s.stats) && 1 <= |tiers|
    ensures LastRoundDone(RoundOf(order, s, tiers, false, budget, |tiers|), tiers)
  {
    var a := RoundOf(order, s, tiers, false, budget, |tiers|);
    forall id | id in a.stats && id !in Scope(tiers, |tiers| - 1)
      ensures Renewed(a.stats[id])
    {
      assert Evolves(NormalizeAll(s.stats)[id], a.stats[id], false, true);
      NormalizedRenewed(s.stats[id]);
    }
  }

  /** A well-formed record, renormalized, is renewed. */
  lemma NormalizedRenewed(s: Stat)
    requires WellFormed(s)
    ensures Renewed(Normalized(s))
  {
  }

  /** One round of Escalated. */
  lemma EscalatedUnfold(order: seq<Id>, s: Load, tiers: seq<seq<Id>>, hasLimit: bool, budget: real, i: nat)
    requires Keyed(order, s.stats) && 1 <= i <= |tiers| && (!hasLimit || s.usage > budget)
    ensures Escalated(order, s, tiers, hasLimit, budget, i)
      == Escalated(order, RoundOf(order, s, tiers, hasLimit, budget, i), tiers, hasLimit, budget, i + 1)
  {
  }

  // ---------------------------------------------------------------------
  // What the rounds do to the records
  // ---------------------------------------------------------------------

  /** Every member of the tiers from index from on is at the bottom. */
  ghost predicate TiersBottom(s: map<Id, Stat>, tiers: seq<seq<Id>>, from: int)
  {
    forall t | 0 <= t < |tiers| && from <= t :: AllBottom(s, tiers[t])
  }

  /** A step that may not disable is one that may. */
  lemma LoweredWeaken(s1: map<Id, Stat>, s2: map<Id, Stat>, scope: set<Id>)
    requires Lowered(s1, s2, scope, false)
    ensures Lowered(s1, s2, scope, true)
  {
  }

  /** A step confined to a smaller scope is confined to a larger one, and
      one that may not disable is one that may. */
  lemma LoweredWiden(s1: map<Id, Stat>, s2: map<Id, Stat>, inner: set<Id>, outer: set<Id>)
    requires inner <= outer
    requires Lowered(s1, s2, inner, false) || Lowered(s1, s2, inner, true)
    ensures Lowered(s1, s2, outer, true)
  {
  }

  /** Records at the bottom stay there. */
  lemma LoweredKeepsBottom(s1: map<Id, Stat>, s2: map<Id, Stat>, scope: set<Id>, sd: bool, tiers: seq<seq<Id>>, from: int)
    requires Lowered(s1, s2, scope, sd) && TiersBottom(s1, tiers, from)
    ensures TiersBottom(s2, tiers, from)
  {
  }

  /** Tiers from t on at the bottom, and tier t - 1 too: tiers from t - 1 on. */
  lemma TiersBottomExtend(s: map<Id, Stat>, tiers: seq<seq<Id>>, t: int)
    requires 1 <= t <= |tiers| && TiersBottom(s, tiers, t) && AllBottom(s, tiers[t - 1])
    ensures TiersBottom(s, tiers, t - 1)
  {
  }

  /** After tier j - 1 (0-based) reaches bottom in a sweep that found the
      tiers above it at bottom, the tiers from j - 1 on are at bottom. */
  lemma SweepBottom(s1: map<Id, Stat>, s2: map<Id, Stat>, scope: set<Id>, sd: bool, tiers: seq<seq<Id>>, j: int)
    requires 1 <= j <= |tiers| && Lowered(s1, s2, scope, sd)
    requires TiersBottom(s1, tiers, j) && AllBottom(s2, tiers[j - 1])
    ensures TiersBottom(s2, tiers, j - 1)
  {
    LoweredKeepsBottom(s1, s2, scope, sd, tiers, j);
    TiersBottomExtend(s2, tiers, j);
  }

  /** The members of tier t lie in the scope of every index up to t, and
      the scopes shrink as the index grows. */
  lemma MembersInScope(tiers: seq<seq<Id>>, t: int, from: int)
    requires 0 <= from <= t < |tiers|
    ensures Members(tiers[t]) <= Scope(tiers, from)
    ensures Scope(tiers, from + 1) <= Scope(tiers, from)
  {
    forall id | id in tiers[t]
      ensures id in Scope(tiers, from)
    {
    }
  }

  /** The sweep: members of the tiers it walks step down and nothing else
      changes; usage is the old one less the bandwidth freed; a sweep within
      budget changes nothing; and it ends within budget or with every tier
      from i on at its bottom. */
  lemma {:induction false} SweptEnvelope(order: seq<Id>, s: Load, tiers: seq<seq<Id>>, i: nat, j: int, budget: real,
                                         shutdown: bool)
    requires Keyed(order, s.stats) && j <= |tiers|
    requires s.usage <= budget || TiersBottom(s.stats, tiers, j)
    ensures var r := Swept(order, s, tiers, i, j, budget, shutdown);
      && Lowered(s.stats, r.stats, Scope(tiers, i), shutdown)
      && r.usage == s.usage - (Total(order, s.stats, Occupied) - Total(order, r.stats, Occupied))
      && (s.usage <= budget ==> r == s)
      && (r.usage <= budget || TiersBottom(r.stats, tiers, i))
    decreases j
  {
    if j <= i || s.usage <= budget {
      LoweredRefl(s.stats, Scope(tiers, i), shutdown);
    } else {
      var c := Conform(order, s.stats, tiers[j - 1], s.usage, budget, shutdown);
      ConformEnvelope(order, s.stats, tiers[j - 1], s.usage, budget, shutdown);
      MembersInScope(tiers, j - 1, i);
      assert Lowered(s.stats, c.stats, Scope(tiers, i), shutdown);
      if c.usage > budget {
        SweepBottom(s.stats, c.stats, Members(tiers[j - 1]), shutdown, tiers, j);
      }
      var r := Swept(order, c, tiers, i, j - 1, budget, shutdown);
      SweptEnvelope(order, c, tiers, i, j - 1, budget, shutdown);
      LoweredTrans(s.stats, c.stats, r.stats, Scope(tiers, i), shutdown);
    }
  }

  /** The turns below round i: members of the tiers after i step down and
      nothing else changes, with exact usage accounting; the turns end within
      budget or with all those tiers at their bottom. */
  lemma TurnsBelowEnvelope(order: seq<Id>, s: Load, tiers: seq<seq<Id>>, i: nat, budget: real)
    requires Keyed(order, s.stats)
    ensures var r := TurnsBelow(order, s, tiers, i, budget);
      && Lowered(s.stats, r.stats, Scope(tiers, i), true)
      && r.usage == s.usage - (Total(order, s.stats, Occupied) - Total(order, r.stats, Occupied))
      && (s.usage <= budget ==> r == s)
      && (r.usage <= budget || TiersBottom(r.stats, tiers, i))
  {
    var scope := Scope(tiers, i);
    if s.usage <= budget {
      LoweredRefl(s.stats, scope, true);
    } else {
      var a := Swept(order, s, tiers, i, |tiers|, budget, false);
      SweptEnvelope(order, s, tiers, i, |tiers|, budget, false);
      LoweredWeaken(s.stats, a.stats, scope);
      if a.usage > budget {
        var b := Swept(order, a, tiers, i, |tiers|, budget, true);
        SweptEnvelope(order, a, tiers, i, |tiers|, budget, true);
        LoweredTrans(s.stats, a.stats, b.stats, scope, true);
      }
    }
  }

  /** Downgrades come before disables: when the sweep without shutdown
      brings usage within the budget, the shutdown sweep never runs and no
      component is switched off that was not off before. */
  lemma DowngradeBeforeDisable(order: seq<Id>, s: Load, tiers: seq<seq<Id>>, i: nat, budget: real)
    requires Keyed(order, s.stats)
    requires Swept(order, s, tiers, i, |tiers|, budget, false).usage <= budget
    ensures TurnsBelow(order, s, tiers, i, budget) == Swept(order, s, tiers, i, |tiers|, budget, false)
    ensures Lowered(s.stats, TurnsBelow(order, s, tiers, i, budget).stats, Scope(tiers, i), false)
  {
    if s.usage <= budget {
      LoweredRefl(s.stats, Scope(tiers, i), false);
    } else {
      SweptEnvelope(order, s, tiers, i, |tiers|, budget, false);
    }
  }

  /** The turns on round i's own tier: its members step down and nothing
      else changes, with exact usage accounting; they end within budget or
      with the tier at its bottom. */
  lemma TurnsOnEnvelope(order: seq<Id>, s: Load, tiers: seq<seq<Id>>, i: nat, budget: real)
    requires Keyed(order, s.stats) && 1 <= i <= |tiers|
    ensures var r := TurnsOn(order, s, tiers, i, budget);
      && Lowered(s.stats, r.stats, Scope(tiers, i - 1), true)
      && r.usage == s.usage - (Total(order, s.stats, Occupied) - Total(order, r.stats, Occupied))
      && (s.usage <= budget ==> r == s)
      && (r.usage <= budget || AllBottom(r.stats, tiers[i - 1]))
  {
    var scope := Scope(tiers, i - 1);
    var own := tiers[i - 1];
    MembersInScope(tiers, i - 1, i - 1);
    if s.usage <= budget {
      LoweredRefl(s.stats, scope, true);
    } else {
      var a := Conform(order, s.stats, own, s.usage, budget, false);
      ConformEnvelope(order, s.stats, own, s.usage, budget, false);
      LoweredWiden(s.stats, a.stats, Members(own), scope);
      if a.usage > budget {
        var b := Conform(order, a.stats, own, a.usage, budget, true);
        ConformEnvelope(order, a.stats, own, a.usage, budget, true);
        LoweredWiden(a.stats, b.stats, Members(own), scope);
        LoweredTrans(s.stats, a.stats, b.stats, scope, true);
      }
    }
  }

  /** One round: the records after the turns below are mid, and tier i is
      touched only when usage is still over the budget then, which finds
      every lower tier at its bottom; the round changes only members of tiers i
      and below, accounts usage exactly, and ends within budget or with all
      of those tiers at their bottom. */
  lemma AfterRoundEnvelope(order: seq<Id>, s: Load, tiers: seq<seq<Id>>, i: nat, budget: real)
    requires Keyed(order, s.stats) && 1 <= i <= |tiers|
    ensures var mid := TurnsBelow(order, s, tiers, i, budget);
      var r := AfterRound(order, s, tiers, i, budget);
      && (mid.usage <= budget ==> r == mid)
      && (mid.usage <= budget || TiersBottom(mid.stats, tiers, i))
      && Lowered(s.stats, r.stats, Scope(tiers, i - 1), true)
      && r.usage == s.usage - (Total(order, s.stats, Occupied) - Total(order, r.stats, Occupied))
      && (s.usage <= budget ==> r == s)
      && (r.usage <= budget || TiersBottom(r.stats, tiers, i - 1))
  {
    var scope := Scope(tiers, i - 1);
    var mid := TurnsBelow(order, s, tiers, i, budget);
    assert Lowered(s.stats, mid.stats, scope, true)
      && mid.usage == s.usage - (Total(order, s.stats, Occupied) - Total(order, mid.stats, Occupied))
      && (s.usage <= budget ==> mid == s)
      && (mid.usage <= budget || TiersBottom(mid.stats, tiers, i)) by {
      TurnsBelowEnvelope(order, s, tiers, i, budget);
      MembersInScope(tiers, i - 1, i - 1);
      LoweredWiden(s.stats, mid.stats, Scope(tiers, i), scope);
    }
    if mid.usage > budget {
      var r := TurnsOn(order, mid, tiers, i, budget);
      assert r == AfterRound(order, s, tiers, i, budget);
      assert Lowered(mid.stats, r.stats, scope, true)
        && r.usage == mid.usage - (Total(order, mid.stats, Occupied) - Total(order, r.stats, Occupied))
        && (r.usage <= budget || AllBottom(r.stats, tiers[i - 1])) by {
        TurnsOnEnvelope(order, mid, tiers, i, budget);
      }
      LoweredTrans(s.stats, mid.stats, r.stats, scope, true);
      if r.usage > budget {
        assert TiersBottom(mid.stats, tiers, i);
        LoweredKeepsBottom(mid.stats, r.stats, scope, true, tiers, i);
        assert AllBottom(r.stats, tiers[i - 1]);
        TiersBottomExtend(r.stats, tiers, i);
      }
    }
  }

  /** With a limit, r is s curbed toward the budget: members of the tiers
      step down and nothing else changes; usage is accounted exactly; a
      start within budget is left alone; and r is within budget or finds
      every tier at its bottom. */
  ghost predicate Curbed(order: seq<Id>, s: Load, r: Load, tiers: seq<seq<Id>>, budget: real)
    requires Covers(order, s.stats) && Covers(order, r.stats)
  {
    && Lowered(s.stats, r.stats, Scope(tiers, 0), true)
    && r.usage == s.usage - (Total(order, s.stats, Occupied) - Total(order, r.stats, Occupied))
    && (s.usage <= budget ==> r == s)
    && (r.usage <= budget || TiersBottom(r.stats, tiers, 0))
  }

  /** Curbing twice is curbing. */
  lemma CurbedTrans(order: seq<Id>, s: Load, a: Load, r: Load, tiers: seq<seq<Id>>, budget: real)
    requires Keyed(order, s.stats) && Keyed(order, a.stats) && Keyed(order, r.stats)
    ensures Curbed(order, s, a, tiers, budget) && Curbed(order, a, r, tiers, budget) ==> Curbed(order, s, r, tiers, budget)
  {
    if Curbed(order, s, a, tiers, budget) && Curbed(order, a, r, tiers, budget) {
      LoweredTrans(s.stats, a.stats, r.stats, Scope(tiers, 0), true);
    }
  }

  /** With a limit, one round over budget that finds the tiers at their
      bottom from the second round on curbs its start. */
  lemma LimitedRound(order: seq<Id>, s: Load, tiers: seq<seq<Id>>, budget: real, i: nat)
    requires Keyed(order, s.stats) && 1 <= i <= |tiers|
    ensures s.usage > budget && (i > 1 ==> TiersBottom(s.stats, tiers, 0)) ==>
      Curbed(order, s, RoundOf(order, s, tiers, true, budget, i), tiers, budget)
  {
    if s.usage > budget && (i > 1 ==> TiersBottom(s.stats, tiers, 0)) {
      var a := AfterRound(order, s, tiers, i, budget);
      assert RoundOf(order, s, tiers, true, budget, i) == a;
      AfterRoundEnvelope(order, s, tiers, i, budget);
      ScopeWithin(tiers, i - 1);
      LoweredWiden(s.stats, a.stats, Scope(tiers, i - 1), Scope(tiers, 0));
      if a.usage > budget {
        if i > 1 {
          LoweredKeepsBottom(s.stats, a.stats, Scope(tiers, 0), true, tiers, 0);
        } else {
          assert i - 1 == 0;
        }
      }
    }
  }

  /** Every scope lies within the scope of all the tiers. */
  lemma ScopeWithin(tiers: seq<seq<Id>>, from: int)
    requires 0 <= from
    ensures Scope(tiers, from) <= Scope(tiers, 0)
  {
  }

  /** Without a limit: records outside the tiers are their originals, or,
      once a round has run, their normalized originals. */
  ghost predicate Renormalized(s0: map<Id, Stat>, s: map<Id, Stat>, scope: set<Id>, normalized: bool)
  {
    forall id | id in s && id !in scope :: id in s0 && s[id] == if normalized then Normalized(s0[id]) else s0[id]
  }

  /** Normalizing twice is normalizing once. */
  lemma NormalizedIdempotent(s: Stat)
    ensures Normalized(Normalized(s)) == Normalized(s)
  {
  }

  /** A renormalized renormalization, or an unchanged one, is a
      renormalization. */
  lemma RenormalizedTrans(s0: map<Id, Stat>, s1: map<Id, Stat>, s2: map<Id, Stat>, scope: set<Id>, normalized: bool)
    requires Renormalized(s0, s1, scope, true) && Renormalized(s1, s2, scope, normalized)
    ensures Renormalized(s0, s2, scope, true)
  {
    forall id | id in s2 && id !in scope
      ensures s2[id] == Normalized(s0[id])
    {
      NormalizedIdempotent(s0[id]);
    }
  }

  lemma RoundKeepsOutside(s0: map<Id, Stat>, s1: map<Id, Stat>, s2: map<Id, Stat>, tiers: seq<seq<Id>>, i: int)
    requires 1 <= i && Renormalized(s0, s1, Scope(tiers, 0), true)
    requires Lowered(s1, s2, Scope(tiers, i - 1), true)
    ensures Renormalized(s0, s2, Scope(tiers, 0), true)
  {
    forall id | id in s2 && id !in Scope(tiers, 0)
      ensures s2[id] == s1[id]
    {
      assert id !in Scope(tiers, i - 1);
    }
  }

  /** b is a record the engine can make of a: only the video bandwidth may
      differ, and it is the measured value, the claimed playing bitrate, a
      rung of the ladder or the disabled marker. */
  ghost predicate Attainable(a: Stat, b: Stat)
  {
    && b == a.(videoBandwidth := b.videoBandwidth)
    && (|| b.videoBandwidth == a.videoBandwidth || b.videoBandwidth == a.playingVideoBitrate
        || b.videoBandwidth in a.videoBitrates || b.videoBandwidth == TURNED_OFF)
  }

  ghost predicate AllAttainable(s0: map<Id, Stat>, s: map<Id, Stat>)
  {
    && s.Keys == s0.Keys
    && forall id | id in s :: Attainable(s0[id], s[id])
  }

  lemma AllAttainableRefl(s: map<Id, Stat>)
    ensures AllAttainable(s, s)
  {
  }

  /** A record attainable from one attainable from a is attainable from a. */
  lemma AllAttainableTrans(s0: map<Id, Stat>, s1: map<Id, Stat>, s2: map<Id, Stat>)
    requires AllAttainable(s0, s1) && AllAttainable(s1, s2)
    ensures AllAttainable(s0, s2)
  {
  }

  /** Normalization and the ladder step keep a record attainable. */
  lemma AttainableSteps(a: Stat, b: Stat, c: Stat)
    requires Attainable(a, b)
    ensures Attainable(a, Normalized(b))
    ensures Descended(b, c) ==> Attainable(a, c)
  {
  }

  lemma AllAttainableLowered(s0: map<Id, Stat>, s1: map<Id, Stat>, s2: map<Id, Stat>, scope: set<Id>)
    requires AllAttainable(s0, s1) && Lowered(s1, s2, scope, true)
    ensures AllAttainable(s0, s2)
  {
    forall id | id in s2
      ensures Attainable(s0[id], s2[id])
    {
      AttainableSteps(s0[id], s1[id], s2[id]);
    }
  }

  lemma AllAttainableNormalized(s0: map<Id, Stat>, s1: map<Id, Stat>)
    requires AllAttainable(s0, s1)
    ensures AllAttainable(s0, NormalizeAll(s1))
  {
    forall id | id in s1
      ensures Attainable(s0[id], Normalized(s1[id]))
    {
      AttainableSteps(s0[id], s1[id], s1[id]);
    }
  }

  // ---------------------------------------------------------------------
  // Escalation over the tiers, on the snapshot
  // ---------------------------------------------------------------------

  /** The loop of index.js:542-544 for one turn. */
  method Sweep(snap: Snapshot, tiers: seq<seq<Id>>, i: nat, usage0: real, budget: real, shutdown: bool)
    returns (usage: real)
    requires snap.Valid()
    modifies snap
    ensures snap.Valid() && snap.order == old(snap.order)
    ensures Load(snap.stats, usage) == Swept(snap.order, Load(old(snap.stats), usage0), tiers, i, |tiers|, budget, shutdown)
  {
    ghost var target := Swept(snap.order, Load(snap.stats, usage0), tiers, i, |tiers|, budget, shutdown);
    usage := usage0;
    var j := |tiers|;
    while j > i && usage > budget
      invariant j <= |tiers|
      invariant snap.Valid() && snap.order == old(snap.order)
      invariant Swept(snap.order, Load(snap.stats, usage), tiers, i, j, budget, shutdown) == target
      decreases j
    {
      usage := snap.ConformGroup(tiers[j - 1], usage, budget, shutdown);
      j := j - 1;
    }
  }

  /** The two turns of index.js:541-545 over the tiers below tier i:
      without shutdown, then with shutdown while usage is still over the
      budget. */
  method LowerTurns(snap: Snapshot, tiers: seq<seq<Id>>, i: nat, usage0: real, budget: real)
    returns (usage: real)
    requires snap.Valid()
    modifies snap
    ensures snap.Valid() && snap.order == old(snap.order)
    ensures Load(snap.stats, usage) == TurnsBelow(snap.order, Load(old(snap.stats), usage0), tiers, i, budget)
  {
    usage := usage0;
    if usage > budget {
      usage := Sweep(snap, tiers, i, usage, budget, false);
      if usage > budget {
        usage := Sweep(snap, tiers, i, usage, budget, true);
      }
    }
  }

  /** The two turns of index.js:548-552 on tier i itself. */
  method OwnTier(snap: Snapshot, tiers: seq<seq<Id>>, i: nat, usage0: real, budget: real)
    returns (usage: real)
    requires snap.Valid() && 1 <= i <= |tiers|
    modifies snap
    ensures snap.Valid() && snap.order == old(snap.order)
    ensures Load(snap.stats, usage) == TurnsOn(snap.order, Load(old(snap.stats), usage0), tiers, i, budget)
  {
    usage := usage0;
    if usage > budget {
      usage := snap.ConformGroup(tiers[i - 1], usage, budget, false);
      if usage > budget {
        usage := snap.ConformGroup(tiers[i - 1], usage, budget, true);
      }
    }
  }

  /** The body of one round of index.js:530 after the optional
      renormalization: the turns over the lower tiers, then, while usage is
      still over the budget, the turns on tier i itself. */
  method Round(snap: Snapshot, tiers: seq<seq<Id>>, i: nat, usage0: real, budget: real)
    returns (usage: real)
    requires snap.Valid() && 1 <= i <= |tiers|
    modifies snap
    ensures snap.Valid() && snap.order == old(snap.order)
    ensures Load(snap.stats, usage) == AfterRound(snap.order, Load(old(snap.stats), usage0), tiers, i, budget)
  {
    usage := LowerTurns(snap, tiers, i, usage0, budget);
    if usage > budget {
      usage := OwnTier(snap, tiers, i, usage, budget);
    }
  }

  /** One round of the loop of index.js:530-553: without a limit,
      renormalize and work on the missing bandwidth over the safety margin
      against a budget of 0 (index.js:534-539); then the turns. */
  method NextRound(snap: Snapshot, tiers: seq<seq<Id>>, hasLimit: bool, i: nat, usage0: real, budget0: real,
                   budget1: real)
    returns (usage: real, budget: real)
    requires snap.Valid() && 1 <= i <= |tiers| && (hasLimit ==> budget1 == budget0)
    modifies snap
    ensures snap.Valid() && snap.order == old(snap.order)
    ensures hasLimit ==> budget == budget0
    ensures Load(snap.stats, usage) == RoundOf(snap.order, Load(old(snap.stats), usage0), tiers, hasLimit, budget0, i)
  {
    usage, budget := usage0, budget1;
    if !hasLimit {
      ghost var before := snap.stats;
      var diff := snap.Normalize();
      usage := diff / BANDWIDTH_LIMIT_SAFETY;
      budget := 0.0;
      NormalizedMap(before, snap.stats);
    }
    usage := Round(snap, tiers, i, usage, budget);
  }

  /** The round loop of index.js:530-553. */
  method Escalate(snap: Snapshot, tiers: seq<seq<Id>>, hasLimit: bool, usage0: real, budget0: real)
    returns (usage: real)
    requires snap.Valid()
    modifies snap
    ensures snap.Valid() && snap.order == old(snap.order)
    ensures Load(snap.stats, usage) == Escalated(snap.order, Load(old(snap.stats), usage0), tiers, hasLimit, budget0, 1)
  {
    ghost var target := Escalated(snap.order, Load(snap.stats, usage0), tiers, hasLimit, budget0, 1);
    usage := usage0;
    var budget := budget0;
    var i := 1;
    while i <= |tiers| && (!hasLimit || usage > budget)
      invariant 1 <= i <= |tiers| + 1
      invariant snap.Valid() && snap.order == old(snap.order)
      invariant hasLimit ==> budget == budget0
      invariant Escalated(snap.order, Load(snap.stats, usage), tiers, hasLimit, budget0, i) == target
      decreases |tiers| + 1 - i
    {
      EscalatedUnfold(snap.order, Load(snap.stats, usage), tiers, hasLimit, budget0, i);
      usage, budget := NextRound(snap, tiers, hasLimit, i, usage, budget0, budget);
      i := i + 1;
    }
  }

  // ---------------------------------------------------------------------
  // The decision of one tick (index.js:490-557)
  // ---------------------------------------------------------------------

  /** Every record normalized, as normalizeComponents leaves the metrics. */
  function NormalizeAll(stats: map<Id, Stat>): (n: map<Id, Stat>)
    ensures n.Keys == stats.Keys
  {
    map id | id in stats :: Normalized(stats[id])
  }

  lemma NormalizeAllKeyed(order: seq<Id>, stats: map<Id, Stat>)
    requires Keyed(order, stats)
    ensures Keyed(order, NormalizeAll(stats))
  {
  }

  lemma NormalizedMap(s0: map<Id, Stat>, s1: map<Id, Stat>)
    requires s1.Keys == s0.Keys && forall id | id in s1 :: s1[id] == Normalized(s0[id])
    ensures s1 == NormalizeAll(s0)
  {
  }

  /** The video bandwidth an action list grants: the bitrate of every
      action that does not disable its component. */
  function Sent(actions: seq<(Id, Action)>): real
    decreases |actions|
  {
    if actions == [] then 0.0
    else
      var a := actions[|actions| - 1].1;
      Sent(actions[..|actions| - 1]) + (if a.action == Disable then 0.0 else a.videoBitrate)
  }

  /** The engine's usage estimate once the notice is applied: the measured
      bandwidth, plus the claims normalization added, minus the video
      bandwidth of the normalized records, plus the video bandwidth the
      actions grant. */
  function Estimate(m: Metrics, actions: seq<(Id, Action)>): real
    requires Covers(m.order, m.stats)
  {
    Total(m.order, m.stats, Demand) + Total(m.order, m.stats, Gap)
      - Total(m.order, NormalizeAll(m.stats), Occupied) + Sent(actions)
  }

  /** The action holds the component at its lowest rung or disables it. */
  predicate AtBottom(a: Action, s: Stat)
  {
    a.action == Disable || (|s.videoBitrates| > 0 && a.videoBitrate == s.videoBitrates[0])
  }

  /** The action keeps the bandwidth, disables the component, or moves it to
      a rung of its ladder that is lower or the lowest. */
  predicate Within(a: Action, s: Stat)
  {
    || a.action == Disable
    || a.videoBitrate == s.videoBandwidth
    || (a.videoBitrate in s.videoBitrates
        && (a.videoBitrate < s.videoBandwidth || a.videoBitrate == s.videoBitrates[0]))
  }

  /** The action list reads the final records one for one. */
  predicate Lists(actions: seq<(Id, Action)>, order: seq<Id>, fin: map<Id, Stat>)
  {
    && |actions| == |order|
    && forall k :: 0 <= k < |order| ==> order[k] in fin && actions[k] == (order[k], ActionFor(fin[order[k]]))
  }

  /** The bandwidth an action list grants is what its records occupy. */
  lemma {:induction false} SentIsOccupied(actions: seq<(Id, Action)>, order: seq<Id>, fin: map<Id, Stat>)
    requires Lists(actions, order, fin)
    ensures Covers(order, fin) && Sent(actions) == Total(order, fin, Occupied)
    decreases |order|
  {
    if order != [] {
      var n := |order| - 1;
      assert Lists(actions[..n], order[..n], fin);
      SentIsOccupied(actions[..n], order[..n], fin);
    }
  }

  /** Each action of a lowered snapshot stays within its record's ladder,
      and records out of scope get the action of their starting record. */
  lemma LoweredActions(actions: seq<(Id, Action)>, order: seq<Id>, s0: map<Id, Stat>, fin: map<Id, Stat>, scope: set<Id>)
    requires Lists(actions, order, fin) && Lowered(s0, fin, scope, true)
    ensures forall k :: 0 <= k < |order| ==> order[k] in s0 && Within(actions[k].1, s0[order[k]])
    ensures forall k | 0 <= k < |order| && order[k] !in scope :: order[k] in s0 && actions[k].1 == ActionFor(s0[order[k]])
  {
  }

  /** Bottom records give bottom actions. */
  lemma BottomActions(actions: seq<(Id, Action)>, order: seq<Id>, s0: map<Id, Stat>, fin: map<Id, Stat>, tiers: seq<seq<Id>>)
    requires Lists(actions, order, fin) && Lowered(s0, fin, Scope(tiers, 0), true) && TiersBottom(fin, tiers, 0)
    ensures forall k | 0 <= k < |order| && order[k] in Scope(tiers, 0) :: order[k] in s0 && AtBottom(actions[k].1, s0[order[k]])
  {
    forall k | 0 <= k < |order| && order[k] in Scope(tiers, 0)
      ensures AtBottom(actions[k].1, s0[order[k]])
    {
      var t :| 0 <= t < |tiers| && order[k] in tiers[t];
      assert AllBottom(fin, tiers[t]);
    }
  }

  /** The fast paths of index.js:512-522: with a limit, the measured
      bandwidth plus the normalization claims fit the budget; without one,
      the measured bandwidth over the safety margin reaches the sum of the
      top rungs. */
  predicate Fits(limit: Option<real>, m: Metrics): (r: bool)
    requires MetricsValid(m)
    ensures limit.Some? ==> (r <==> Start(limit, m).usage <= Budget(limit))
  {
    if limit.Some? then Total(m.order, m.stats, Demand) + Total(m.order, m.stats, Gap) <= limit.value * BANDWIDTH_LIMIT_SAFETY
    else Total(m.order, m.stats, Demand) / BANDWIDTH_LIMIT_SAFETY >= Total(m.order, m.stats, Ceiling)
  }

  /** Raising the limit never turns the fast path off: metrics that fit a
      limit fit every larger one. */
  lemma FitsMonotone(x: real, y: real, m: Metrics)
    requires MetricsValid(m) && x <= y
    ensures Fits(Some(x), m) ==> Fits(Some(y), m)
  {
  }

  /** The action is the one createActionList makes of the component's own
      record with only its video bandwidth changed to the action's bitrate,
      and that bitrate is the measured bandwidth, the claimed playing
      bitrate, a rung of the ladder or the disabled marker. */
  predicate Granted(a: Action, s: Stat)
  {
    && a == ActionFor(s.(videoBandwidth := a.videoBitrate))
    && (|| a.videoBitrate == s.videoBandwidth || a.videoBitrate == s.playingVideoBitrate
        || a.videoBitrate in s.videoBitrates || a.videoBitrate == TURNED_OFF)
  }

  /** Listing records attainable from the metrics grants each action. */
  lemma ActionsGranted(m: Metrics, list: seq<(Id, Action)>, fin: map<Id, Stat>)
    requires Lists(list, m.order, fin) && AllAttainable(m.stats, fin)
    ensures forall k :: 0 <= k < |m.order| ==> Granted(list[k].1, m.stats[m.order[k]])
  {
  }

  /** What the engine promises of the action list it sends: one action per
      metrics key in key order, each of a kind createActionList gives the
      component's record at the action's bitrate, which is the measured or
      playing bitrate, a rung, or the disabled marker; with a limit, every action within its
      normalized record's ladder, components outside the tiers at their
      normalized bandwidth, and either the estimate within the budget or
      every tier member at its bottom; without a limit, components outside
      the tiers at their normalized bandwidth (at their measured one when
      there are no tiers), and, since every round renormalizes first, no
      component outside the last tier disabled or downgraded other than to 0. */
  predicate Regulated(limit: Option<real>, tiers: seq<seq<Id>>, m: Metrics, actions: seq<(Id, Action)>)
    requires Covers(m.order, m.stats)
  {
    && |actions| == |m.order|
    && (forall k :: 0 <= k < |m.order| ==> actions[k].0 == m.order[k])
    && (forall k :: 0 <= k < |m.order| ==> Granted(actions[k].1, m.stats[m.order[k]]))
    && (limit.Some? ==>
         && (forall k :: 0 <= k < |m.order| ==> Within(actions[k].1, Normalized(m.stats[m.order[k]])))
         && (forall k | 0 <= k < |m.order| && m.order[k] !in Scope(tiers, 0) ::
               actions[k].1 == ActionFor(Normalized(m.stats[m.order[k]])))
         && (|| Estimate(m, actions) <= limit.value * BANDWIDTH_LIMIT_SAFETY
             || forall k | 0 <= k < |m.order| && m.order[k] in Scope(tiers, 0) :: AtBottom(actions[k].1, m.stats[m.order[k]])))
    && (limit.None? ==>
         forall k | 0 <= k < |m.order| && m.order[k] !in Scope(tiers, 0) ::
           actions[k].1 == ActionFor(if |tiers| > 0 then Normalized(m.stats[m.order[k]]) else m.stats[m.order[k]]))
    && (limit.None? && |tiers| > 0 ==>
         forall k | 0 <= k < |m.order| && m.order[k] !in Scope(tiers, |tiers| - 1) ::
           actions[k].1.action != Disable && (actions[k].1.action == Downgrade ==> actions[k].1.videoBitrate == 0.0))
  }

  /** The final records Escalate leaves, listed, meet Regulated. */
  lemma ListRegulated(limit: Option<real>, tiers: seq<seq<Id>>, m: Metrics, list: seq<(Id, Action)>, fin: map<Id, Stat>, usage: real)
    requires MetricsValid(m) && Lists(list, m.order, fin) && AllAttainable(m.stats, fin)
    requires limit.Some? ==>
      && Lowered(NormalizeAll(m.stats), fin, Scope(tiers, 0), true)
      && usage == Total(m.order, m.stats, Demand) + Total(m.order, m.stats, Gap)
           - (Total(m.order, NormalizeAll(m.stats), Occupied) - Total(m.order, fin, Occupied))
      && (usage <= limit.value * BANDWIDTH_LIMIT_SAFETY || TiersBottom(fin, tiers, 0))
    requires limit.None? ==>
      forall id | id in fin && id !in Scope(tiers, 0) ::
        id in m.stats && fin[id] == if |tiers| > 0 then Normalized(m.stats[id]) else m.stats[id]
    requires limit.None? && |tiers| > 0 ==>
      forall id | id in fin && id !in Scope(tiers, |tiers| - 1) :: Renewed(fin[id])
    ensures Regulated(limit, tiers, m, list)
  {
    if limit.Some? {
      LimitedRegulated(limit.value, tiers, m, list, fin, usage);
    } else {
      UnlimitedRegulated(tiers, m, list, fin);
    }
  }

  lemma LimitedRegulated(limit: real, tiers: seq<seq<Id>>, m: Metrics, list: seq<(Id, Action)>, fin: map<Id, Stat>, usage: real)
    requires MetricsValid(m) && Lists(list, m.order, fin) && AllAttainable(m.stats, fin)
    requires Lowered(NormalizeAll(m.stats), fin, Scope(tiers, 0), true)
    requires usage == Total(m.order, m.stats, Demand) + Total(m.order, m.stats, Gap)
           - (Total(m.order, NormalizeAll(m.stats), Occupied) - Total(m.order, fin, Occupied))
    requires usage <= limit * BANDWIDTH_LIMIT_SAFETY || TiersBottom(fin, tiers, 0)
    ensures Regulated(Some(limit), tiers, m, list)
  {
    ActionsGranted(m, list, fin);
    ActionsWithinNormalized(tiers, m, list, fin);
    if usage <= limit * BANDWIDTH_LIMIT_SAFETY {
      SentIsOccupied(list, m.order, fin);
      assert Estimate(m, list) == usage;
    } else {
      ActionsAtBottom(tiers, m, list, fin);
    }
  }

  lemma ActionsWithinNormalized(tiers: seq<seq<Id>>, m: Metrics, list: seq<(Id, Action)>, fin: map<Id, Stat>)
    requires MetricsValid(m) && Lists(list, m.order, fin)
    requires Lowered(NormalizeAll(m.stats), fin, Scope(tiers, 0), true)
    ensures forall k :: 0 <= k < |m.order| ==> Within(list[k].1, Normalized(m.stats[m.order[k]]))
    ensures forall k | 0 <= k < |m.order| && m.order[k] !in Scope(tiers, 0) ::
      list[k].1 == ActionFor(Normalized(m.stats[m.order[k]]))
  {
    var start := NormalizeAll(m.stats);
    LoweredActions(list, m.order, start, fin, Scope(tiers, 0));
    forall k | 0 <= k < |m.order|
      ensures start[m.order[k]] == Normalized(m.stats[m.order[k]])
    {
    }
  }

  lemma ActionsAtBottom(tiers: seq<seq<Id>>, m: Metrics, list: seq<(Id, Action)>, fin: map<Id, Stat>)
    requires MetricsValid(m) && Lists(list, m.order, fin)
    requires Lowered(NormalizeAll(m.stats), fin, Scope(tiers, 0), true) && TiersBottom(fin, tiers, 0)
    ensures forall k | 0 <= k < |m.order| && m.order[k] in Scope(tiers, 0) :: AtBottom(list[k].1, m.stats[m.order[k]])
  {
    var start := NormalizeAll(m.stats);
    BottomActions(list, m.order, start, fin, tiers);
    forall k | 0 <= k < |m.order| && m.order[k] in Scope(tiers, 0)
      ensures AtBottom(list[k].1, m.stats[m.order[k]])
    {
      assert start[m.order[k]].videoBitrates == m.stats[m.order[k]].videoBitrates;
    }
  }

  lemma UnlimitedRegulated(tiers: seq<seq<Id>>, m: Metrics, list: seq<(Id, Action)>, fin: map<Id, Stat>)
    requires MetricsValid(m) && Lists(list, m.order, fin) && AllAttainable(m.stats, fin)
    requires forall id | id in fin && id !in Scope(tiers, 0) ::
        id in m.stats && fin[id] == if |tiers| > 0 then Normalized(m.stats[id]) else m.stats[id]
    requires |tiers| > 0 ==> forall id | id in fin && id !in Scope(tiers, |tiers| - 1) :: Renewed(fin[id])
    ensures Regulated(None, tiers, m, list)
  {
    ActionsGranted(m, list, fin);
  }

  /** The decision of index.js:501-557 as a function of the metrics: None
      where the tick resolves without sending anything, otherwise the
      action list of the records the rounds leave. */
  function Decision(limit: Option<real>, tiers: seq<seq<Id>>, m: Metrics): Option<seq<(Id, Action)>>
    requires MetricsValid(m)
  {
    var usage := Total(m.order, m.stats, Demand);
    if limit.Some? then
      var budget := limit.value * BANDWIDTH_LIMIT_SAFETY;
      var claimed := usage + Total(m.order, m.stats, Gap);
      if claimed <= budget then None
      else Some(ActionList(m.order, Escalated(m.order, Load(NormalizeAll(m.stats), claimed), tiers, true, budget, 1).stats))
    else if usage / BANDWIDTH_LIMIT_SAFETY >= Total(m.order, m.stats, Ceiling) then None
    else Some(ActionList(m.order, Escalated(m.order, Load(m.stats, usage), tiers, false, -1.0, 1).stats))
  }

  /** The records and usage the rounds start from: with a limit, the
      normalized records and the measured usage plus the missing bandwidth
      (index.js:505-512); without one, the records as fetched and the
      measured usage. */
  function Start(limit: Option<real>, m: Metrics): (s: Load)
    requires MetricsValid(m)
    ensures Keyed(m.order, s.stats)
    ensures s.stats.Keys == m.stats.Keys
  {
    NormalizeAllKeyed(m.order, m.stats);
    if limit.Some? then Load(NormalizeAll(m.stats), Total(m.order, m.stats, Demand) + Total(m.order, m.stats, Gap))
    else Load(m.stats, Total(m.order, m.stats, Demand))
  }

  /** The budget of the rounds: the limit less its safety margin, or the
      -1 the source starts from without a limit. */
  function Budget(limit: Option<real>): real
  {
    if limit.Some? then limit.value * BANDWIDTH_LIMIT_SAFETY else -1.0
  }

  /** When the DMApp does not fit, the decision lists the records the rounds
      leave from the start. */
  lemma DecisionSends(limit: Option<real>, tiers: seq<seq<Id>>, m: Metrics)
    requires MetricsValid(m) && !Fits(limit, m)
    ensures Decision(limit, tiers, m) ==
      Some(ActionList(m.order, Escalated(m.order, Start(limit, m), tiers, limit.Some?, Budget(limit), 1).stats))
  {
  }

  /** The decision sends nothing exactly when the DMApp fits, and what it
      sends meets Regulated. */
  lemma DecisionRegulated(limit: Option<real>, tiers: seq<seq<Id>>, m: Metrics)
    requires MetricsValid(m)
    ensures Decision(limit, tiers, m).None? <==> Fits(limit, m)
    ensures Decision(limit, tiers, m).Some? ==> Regulated(limit, tiers, m, Decision(limit, tiers, m).value)
  {
    if !Fits(limit, m) {
      DecisionSends(limit, tiers, m);
      var start := Start(limit, m);
      var fin := Escalated(m.order, start, tiers, limit.Some?, Budget(limit), 1);
      SentRegulated(limit, tiers, m, fin);
    }
  }

  /** The action list of the records the rounds leave meets Regulated. */
  lemma SentRegulated(limit: Option<real>, tiers: seq<seq<Id>>, m: Metrics, fin: Load)
    requires MetricsValid(m)
    requires fin == Escalated(m.order, Start(limit, m), tiers, limit.Some?, Budget(limit), 1)
    ensures Regulated(limit, tiers, m, ActionList(m.order, fin.stats))
  {
    var start := Start(limit, m);
    if limit.Some? {
      AllAttainableRefl(m.stats);
      AllAttainableNormalized(m.stats, m.stats);
    } else {
      AllAttainableRefl(m.stats);
      if |tiers| > 0 {
        UnlimitedLastRound(m.order, start, tiers, Budget(limit), 1, fin);
      }
    }
    AllAttainableTrans(m.stats, start.stats, fin.stats);
    ListRegulated(limit, tiers, m, ActionList(m.order, fin.stats), fin.stats, fin.usage);
  }

  /** The decision part of evaluateDMApp, from the metrics on: measure,
      normalize when there is a limit, stop early when the DMApp fits, and
      otherwise escalate and list the actions. None where the source
      resolves without sending anything. */
  method Regulate(limit: Option<real>, tiers: seq<seq<Id>>, m: Metrics) returns (actions: Option<seq<(Id, Action)>>)
    requires MetricsValid(m)
    ensures actions == Decision(limit, tiers, m)
    ensures actions.None? <==> Fits(limit, m)
    ensures actions.Some? ==> Regulated(limit, tiers, m, actions.value)
  {
    DecisionRegulated(limit, tiers, m);
    var hasLimit := limit.Some?;
    var budget := Budget(limit);
    var snap, usage, maxBandwidth := Measure(limit, m);
    if hasLimit && usage <= budget {
      return None;
    }
    if !hasLimit && usage / BANDWIDTH_LIMIT_SAFETY >= maxBandwidth {
      return None;
    }
    var list := Respond(limit, tiers, m, snap, usage, budget);
    return Some(list);
  }

  /** The measurements of index.js:506-515: the usage and the sum of the top
      rungs over the metrics, then, with a limit, the normalization and the
      bandwidth it claims. */
  method Measure(limit: Option<real>, m: Metrics) returns (snap: Snapshot, usage: real, maxBandwidth: real)
    requires MetricsValid(m)
    ensures fresh(snap) && snap.Valid() && snap.order == m.order
    ensures Load(snap.stats, usage) == Start(limit, m)
    ensures maxBandwidth == Total(m.order, m.stats, Ceiling)
  {
    snap := new Snapshot(m.order, m.stats);
    usage := snap.BandwidthUsage(false);
    maxBandwidth := snap.BandwidthUsage(true);
    if limit.Some? {
      var diff := snap.Normalize();
      usage := usage + diff;
      NormalizedMap(m.stats, snap.stats);
    }
  }

  /** Escalation and the action list, once the DMApp does not fit. */
  method Respond(limit: Option<real>, tiers: seq<seq<Id>>, m: Metrics, snap: Snapshot, usage0: real, budget: real)
    returns (list: seq<(Id, Action)>)
    requires MetricsValid(m) && snap.Valid() && snap.order == m.order
    requires budget == Budget(limit) && Load(snap.stats, usage0) == Start(limit, m)
    requires !Fits(limit, m)
    modifies snap
    ensures Some(list) == Decision(limit, tiers, m)
  {
    DecisionSends(limit, tiers, m);
    var usage := Escalate(snap, tiers, limit.Some?, usage0, budget);
    list := snap.CreateActionList();
  }

  // ---------------------------------------------------------------------
  // One tick
  // ---------------------------------------------------------------------

  /** The layout was fetched and prepDMAppData did not throw on it. */
  predicate Usable(layout: Fetch<seq<ComponentInfo>>, session: Session)
  {
    layout.Fetched? && TierLists(layout.value, session.priorityLevels).Some?
  }

  /** evaluateDMApp: one tick of the job. A failed layout fetch, a layout
      prepDMAppData throws on, or a failed metrics fetch only prunes; empty
      metrics only prune; otherwise the DMApp is marked active, waits out
      its grace ticks, and then either fits or is sent an action list. */
  method Evaluate(session: Session, layout: Fetch<seq<ComponentInfo>>, metrics: Fetch<Metrics>, opts: Options, now: int)
    returns (r: Tick)
    requires metrics.Fetched? ==> MetricsValid(metrics.value)
    ensures !Usable(layout, session) ==> r == Tick(opts, FetchFailurePrune(opts, now), None)
    ensures Usable(layout, session) && metrics.Failed? ==> r == Tick(opts, FetchFailurePrune(opts, now), None)
    ensures Usable(layout, session) && metrics.Fetched? && |metrics.value.order| == 0 ==>
      r == Tick(opts, IdlePrune(opts, now), None)
    ensures Usable(layout, session) && metrics.Fetched? && |metrics.value.order| > 0 ==>
      !r.stop && r.options == Activated(opts, now)
    ensures opts.grace > 0 ==> r.notice.None?
    ensures Usable(layout, session) && metrics.Fetched? && |metrics.value.order| > 0 && opts.grace <= 0 ==>
      (r.notice.None? <==> Fits(session.availableBandwidth, metrics.value))
    ensures Usable(layout, session) && metrics.Fetched? && |metrics.value.order| > 0 && opts.grace <= 0 ==>
      var d := Decision(session.availableBandwidth, TierLists(layout.value, session.priorityLevels).value, metrics.value);
      r.notice == if d.Some? then Some(Notice(session.dmappId, d.value)) else None
    ensures r.notice.Some? ==>
      && Usable(layout, session) && metrics.Fetched?
      && r.notice.value.dmappId == session.dmappId
      && Regulated(session.availableBandwidth, TierLists(layout.value, session.priorityLevels).value,
                   metrics.value, r.notice.value.actions)
  {
    if layout.Failed? {
      return Tick(opts, FetchFailurePrune(opts, now), None);
    }
    var levels := PrepTiers(layout.value, session.priorityLevels);
    if levels.None? {
      // the TypeError of index.js:434 rejects into the layout catch
      return Tick(opts, FetchFailurePrune(opts, now), None);
    }
    if metrics.Failed? {
      return Tick(opts, FetchFailurePrune(opts, now), None);
    }
    var m := metrics.value;
    if |m.order| == 0 {
      return Tick(opts, IdlePrune(opts, now), None);
    }
    var options := opts.(startedRunning := true, lastActive := now);
    if options.grace > 0 {
      options := options.(grace := options.grace - 1);
      return Tick(options, false, None);
    }
    var actions := Regulate(session.availableBandwidth, levels.value, m);
    if actions.None? {
      return Tick(options, false, None);
    }
    return Tick(options, false, Some(Notice(session.dmappId, actions.value)));
  }
}

=== FILE: layout.dfy ===
/** extractComponents (layoutDB.js:93-108): collects the components of one
    DMApp from a context's layout document into an object keyed by
    instanceId. */
module LayoutDB {
  import opened Stats
  import opened Tiering

  /** One component placed on a device: the DMApp it belongs to, its
      instance id and its layout priority. */
  datatype Component = Component(dmappId: Id, instanceId: Id, priority: int)

  /** A device of the layout and its components, in key order. */
  datatype Device = Device(components: seq<Component>)

  /** The layout document: its devices in key order. */
  datatype Layout = Layout(devices: seq<Device>)

  // ---------------------------------------------------------------------
  // The result object
  // ---------------------------------------------------------------------

  /** The position of a key in the object. */
  function IndexOf(obj: seq<ComponentInfo>, id: Id): (i: nat)
    requires id in Ids(obj)
    ensures i < |obj| && obj[i].instanceId == id
    decreases |obj|
  {
    if obj[0].instanceId == id then 0
    else
      assert Ids(obj) == [obj[0].instanceId] + Ids(obj[1..]);
      1 + IndexOf(obj[1..], id)
  }

  /** Assigning obj[id] = {priority}: an existing key keeps its place and
      takes the new value, a new key goes to the end. */
  function Put(obj: seq<ComponentInfo>, id: Id, priority: int): (r: seq<ComponentInfo>)
    requires DistinctIds(obj)
    ensures DistinctIds(r)
    ensures Ids(r) == if id in Ids(obj) then Ids(obj) else Ids(obj) + [id]
    ensures forall k :: 0 <= k < |r| ==>
      r[k] == if r[k].instanceId == id then ComponentInfo(id, priority) else obj[k]
  {
    var entry := ComponentInfo(id, priority);
    if id in Ids(obj) then
      var i := IndexOf(obj, id);
      assert Ids(obj[i := entry]) == Ids(obj);
      obj[i := entry]
    else
      assert Ids(obj + [entry]) == Ids(obj) + [id];
      obj + [entry]
  }

  /** The object that assigning the components in order builds from {}. */
  function PutAll(cs: seq<Component>): (r: seq<ComponentInfo>)
    ensures DistinctIds(r)
    decreases |cs|
  {
    if cs == [] then []
    else
      var c := cs[|cs| - 1];
      Put(PutAll(cs[..|cs| - 1]), c.instanceId, c.priority)
  }

  /** The components of one device that belong to the DMApp, in order. */
  function MatchingIn(cs: seq<Component>, dmappId: Id): (r: seq<Component>)
    ensures forall c <- r :: c in cs && c.dmappId == dmappId
    ensures forall c <- cs :: c.dmappId == dmappId ==> c in r
    decreases |cs|
  {
    if cs == [] then []
    else
      var c := cs[|cs| - 1];
      assert forall x <- cs :: x in cs[..|cs| - 1] || x == c;
      MatchingIn(cs[..|cs| - 1], dmappId) + (if c.dmappId == dmappId then [c] else [])
  }

  /** The DMApp's components over all devices, devices in order. */
  function Matching(devices: seq<Device>, dmappId: Id): seq<Component>
    decreases |devices|
  {
    if devices == [] then []
    else Matching(devices[..|devices| - 1], dmappId) + MatchingIn(devices[|devices| - 1].components, dmappId)
  }

  lemma PutAllSnoc(cs: seq<Component>, c: Component)
    ensures PutAll(cs + [c]) == Put(PutAll(cs), c.instanceId, c.priority)
  {
    assert (cs + [c])[..|cs|] == cs;
  }

  lemma MatchingInSnoc(done: seq<Component>, cs: seq<Component>, k: nat, dmappId: Id)
    requires k < |cs|
    ensures done + MatchingIn(cs[..k + 1], dmappId)
         == done + MatchingIn(cs[..k], dmappId) + (if cs[k].dmappId == dmappId then [cs[k]] else [])
  {
    assert cs[..k + 1][..k] == cs[..k];
    var tail := if cs[k].dmappId == dmappId then [cs[k]] else [];
    assert MatchingIn(cs[..k + 1], dmappId) == MatchingIn(cs[..k], dmappId) + tail;
    assert done + (MatchingIn(cs[..k], dmappId) + tail) == done + MatchingIn(cs[..k], dmappId) + tail;
  }

  lemma MatchingSnoc(devices: seq<Device>, d: nat, dmappId: Id)
    requires d < |devices|
    ensures Matching(devices[..d + 1], dmappId) == Matching(devices[..d], dmappId) + MatchingIn(devices[d].components, dmappId)
  {
    assert devices[..d + 1][..d] == devices[..d];
  }

  /** extractComponents: the loop over the devices. */
  method ExtractComponents(layout: Layout, dmappId: Id) returns (components: seq<ComponentInfo>)
    ensures components == PutAll(Matching(layout.devices, dmappId))
  {
    components := [];
    var d := 0;
    while d < |layout.devices|
      invariant 0 <= d <= |layout.devices|
      invariant components == PutAll(Matching(layout.devices[..d], dmappId))
    {
      components := CollectDevice(components, Matching(layout.devices[..d], dmappId), layout.devices[d], dmappId);
      MatchingSnoc(layout.devices, d, dmappId);
      d := d + 1;
    }
    assert layout.devices[..d] == layout.devices;
  }

  /** The inner loop of extractComponents (layoutDB.js:97-104): assigns
      each component of the device that belongs to the DMApp. */
  method CollectDevice(components0: seq<ComponentInfo>, ghost done: seq<Component>, device: Device, dmappId: Id)
    returns (components: seq<ComponentInfo>)
    requires components0 == PutAll(done)
    ensures components == PutAll(done + MatchingIn(device.components, dmappId))
  {
    components := components0;
    ghost var seen := done;
    var c := 0;
    while c < |device.components|
      invariant 0 <= c <= |device.components|
      invariant seen == done + MatchingIn(device.components[..c], dmappId)
      invariant components == PutAll(seen)
    {
      var component := device.components[c];
      MatchingInSnoc(done, device.components, c, dmappId);
      if component.dmappId == dmappId {
        PutAllSnoc(seen, component);
        seen := seen + [component];
        components := Put(components, component.instanceId, component.priority);
      }
      c := c + 1;
    }
    assert device.components[..c] == device.components;
  }

  // ---------------------------------------------------------------------
  // What the object holds
  // ---------------------------------------------------------------------

  /** The ids in order of first appearance. */
  function FirstOccurrences(ids: seq<Id>): (r: seq<Id>)
    ensures Distinct(r)
    ensures forall id :: id in r <==> id in ids
    decreases |ids|
  {
    if ids == [] then []
    else
      var init := ids[..|ids| - 1];
      var last := ids[|ids| - 1];
      var d := FirstOccurrences(init);
      assert forall id :: id in ids <==> id in init || id == last;
      if last in d then d else d + [last]
  }

  function InstanceIds(cs: seq<Component>): (ids: seq<Id>)
    ensures |ids| == |cs| && forall k :: 0 <= k < |cs| ==> ids[k] == cs[k].instanceId
  {
    seq(|cs|, k requires 0 <= k < |cs| => cs[k].instanceId)
  }

  /** The priority of the last component with the given id. */
  function LastPriority(cs: seq<Component>, id: Id): Option<int>
    decreases |cs|
  {
    if cs == [] then None
    else if cs[|cs| - 1].instanceId == id then Some(cs[|cs| - 1].priority)
    else LastPriority(cs[..|cs| - 1], id)
  }

  /** The object's keys are the instance ids in order of first assignment:
      distinct, and exactly the ids assigned. */
  lemma {:induction false} PutAllKeys(cs: seq<Component>)
    ensures Ids(PutAll(cs)) == FirstOccurrences(InstanceIds(cs))
    decreases |cs|
  {
    if cs != [] {
      var n := |cs| - 1;
      PutAllKeys(cs[..n]);
      assert InstanceIds(cs)[..n] == InstanceIds(cs[..n]);
    }
  }

  /** Every key holds the priority of the last component assigned to it. */
  lemma {:induction false} PutAllValues(cs: seq<Component>)
    ensures forall k :: 0 <= k < |PutAll(cs)| ==>
      LastPriority(cs, PutAll(cs)[k].instanceId) == Some(PutAll(cs)[k].priority)
    decreases |cs|
  {
    if cs != [] {
      var n := |cs| - 1;
      PutAllValues(cs[..n]);
      PutAllKeys(cs[..n]);
      var before := PutAll(cs[..n]);
      var after := PutAll(cs);
      forall k | 0 <= k < |after|
        ensures LastPriority(cs, after[k].instanceId) == Some(after[k].priority)
      {
        if after[k].instanceId != cs[n].instanceId {
          assert k < |before| by {
            assert Ids(after)[k] == after[k].instanceId;
            if cs[n].instanceId !in Ids(before) {
              assert Ids(after) == Ids(before) + [cs[n].instanceId];
            }
          }
        }
      }
    }
  }

  /** With no devices the object is empty. */
  lemma NoDevicesNoComponents(dmappId: Id)
    ensures PutAll(Matching([], dmappId)) == []
  {
  }

  /** The components extracted for a DMApp: keys distinct and in order of
      first appearance among the DMApp's components, each holding the
      priority of the last of them with that id; components of other
      DMApps never appear. */
  lemma ExtractedComponents(layout: Layout, dmappId: Id)
    ensures var r := PutAll(Matching(layout.devices, dmappId));
      && DistinctIds(r)
      && Ids(r) == FirstOccurrences(InstanceIds(Matching(layout.devices, dmappId)))
      && forall k :: 0 <= k < |r| ==>
           LastPriority(Matching(layout.devices, dmappId), r[k].instanceId) == Some(r[k].priority)
  {
    var cs := Matching(layout.devices, dmappId);
    var r := PutAll(cs);
    PutAllKeys(cs);
    PutAllValues(cs);
    forall i, j | 0 <= i < j < |r|
      ensures r[i].instanceId != r[j].instanceId
    {
      assert Ids(r)[i] == r[i].instanceId && Ids(r)[j] == r[j].instanceId;
    }
  }

  /** Only components of the DMApp are collected, and all of them. */
  lemma {:induction false} MatchingExactly(devices: seq<Device>, dmappId: Id)
    ensures forall c <- Matching(devices, dmappId) :: c.dmappId == dmappId
    ensures forall d <- devices, c <- d.components :: c.dmappId == dmappId ==> c in Matching(devices, dmappId)
    decreases |devices|
  {
    if devices != [] {
      var n := |devices| - 1;
      MatchingExactly(devices[..n], dmappId);
      assert forall d <- devices :: d in devices[..n] || d == devices[n];
    }
  }
}

=== FILE: logger.dfy ===
/** logger.js: the one-line log message format and the logger
    configuration update. */
module Logger {

  // ---------------------------------------------------------------------
  // formatLogMsg (logger.js:76-97)
  // ---------------------------------------------------------------------

  /** The context argument: absent (undefined or null), a string, or an
      object with its own keys and their values, in key order. */
  datatype Context = Absent | Text(text: string) | Fields(fields: seq<(string, string)>)

  /** The " key:value " pieces of an object context, in key order: empty
      for no fields, otherwise opened and closed by a space, so a piece
      never runs into the message. */
  function FieldsPrefix(fields: seq<(string, string)>): (r: string)
    ensures r == [] <==> fields == []
    ensures r != [] ==> r[0] == ' ' && r[|r| - 1] == ' '
    decreases |fields|
  {
    if fields == [] then ""
    else
      var (key, value) := fields[|fields| - 1];
      FieldsPrefix(fields[..|fields| - 1]) + " " + key + ":" + value + " "
  }

  /** The prefix: empty for an absent or string context, the pieces of the
      fields otherwise. */
  function Prefix(ctx: Context): (r: string)
    ensures !ctx.Fields? || ctx.fields == [] ==> r == []
    ensures r != [] ==> r[0] == ' ' && r[|r| - 1] == ' '
  {
    if ctx.Fields? then FieldsPrefix(ctx.fields) else ""
  }

  /** msg.replace(/'/g, "\""): every single quote becomes a double quote,
      so the result holds none. */
  function ReplaceQuotes(s: string): (r: string)
    ensures |r| == |s|
    ensures forall k :: 0 <= k < |r| ==> r[k] != '\''
    ensures forall k :: 0 <= k < |s| ==> r[k] == if s[k] == '\'' then '"' else s[k]
    decreases |s|
  {
    if s == [] then ""
    else [if s[0] == '\'' then '"' else s[0]] + ReplaceQuotes(s[1..])
  }

  predicate IsBreak(c: char)
  {
    c == '\r' || c == '\n'
  }

  predicate NoBreaks(s: string)
  {
    forall k :: 0 <= k < |s| ==> !IsBreak(s[k])
  }

  /** .replace(/(\r\n|\n|\r)/gm, " "): scanning left to right, a CR LF pair,
      a lone LF or a lone CR each become one space. */
  function StripLineBreaks(s: string): (r: string)
    ensures |r| <= |s|
    decreases |s|
  {
    if s == [] then ""
    else if |s| >= 2 && s[0] == '\r' && s[1] == '\n' then " " + StripLineBreaks(s[2..])
    else if IsBreak(s[0]) then " " + StripLineBreaks(s[1..])
    else [s[0]] + StripLineBreaks(s[1..])
  }

  /** No line break survives. */
  lemma {:induction false} StripRemovesBreaks(s: string)
    ensures NoBreaks(StripLineBreaks(s))
    decreases |s|
  {
    if s == [] {
    } else if |s| >= 2 && s[0] == '\r' && s[1] == '\n' {
      StripRemovesBreaks(s[2..]);
      NoBreaksAppend(" ", StripLineBreaks(s[2..]));
    } else {
      StripRemovesBreaks(s[1..]);
      NoBreaksAppend(StripLineBreaks(s)[..1], StripLineBreaks(s[1..]));
      assert StripLineBreaks(s) == StripLineBreaks(s)[..1] + StripLineBreaks(s[1..]);
    }
  }

  /** Text without line breaks passes through unchanged. */
  lemma {:induction false} StripWithoutBreaks(s: string)
    requires NoBreaks(s)
    ensures StripLineBreaks(s) == s
    decreases |s|
  {
    if s != [] {
      StripWithoutBreaks(s[1..]);
    }
  }

  /** Stripping works piecewise unless a CR at the end of the first piece
      and an LF at the start of the second form one pair. */
  lemma {:induction false} StripConcat(a: string, b: string)
    requires !(|a| > 0 && |b| > 0 && a[|a| - 1] == '\r' && b[0] == '\n')
    ensures StripLineBreaks(a + b) == StripLineBreaks(a) + StripLineBreaks(b)
    decreases |a|, 1
  {
    if a == [] {
      assert a + b == b;
    } else if |a| == 1 {
      StripConcatLast(a, b);
    } else {
      StripConcatHead(a, b);
    }
  }

  lemma StripConcatLast(a: string, b: string)
    requires |a| == 1 && !(|b| > 0 && a[0] == '\r' && b[0] == '\n')
    ensures StripLineBreaks(a + b) == StripLineBreaks(a) + StripLineBreaks(b)
  {
    var ab := a + b;
    assert ab[0] == a[0] && ab[1..] == b;
    assert StripLineBreaks(a) == (if IsBreak(a[0]) then " " else a);
    assert !(|ab| >= 2 && ab[0] == '\r' && ab[1] == '\n');
  }

  lemma {:induction false} StripConcatHead(a: string, b: string)
    requires |a| >= 2 && !(|b| > 0 && a[|a| - 1] == '\r' && b[0] == '\n')
    ensures StripLineBreaks(a + b) == StripLineBreaks(a) + StripLineBreaks(b)
    decreases |a|, 0
  {
    var ab := a + b;
    assert ab[0] == a[0] && ab[1] == a[1];
    var n := if a[0] == '\r' && a[1] == '\n' then 2 else 1;
    assert ab[n..] == a[n..] + b;
    StripConcat(a[n..], b);
  }

  /** A break at the head of break-free text becomes one space. */
  lemma StripHead(brk: string, b: string)
    requires brk == "\r\n" || brk == "\n" || brk == "\r"
    requires NoBreaks(b)
    ensures StripLineBreaks(brk + b) == " " + b
  {
    var s := brk + b;
    StripWithoutBreaks(b);
    assert s[|brk|..] == b;
    if brk == "\r" && |b| > 0 {
      assert s[1] == b[0] && !IsBreak(b[0]);
    }
  }

  /** Each CR LF pair, lone LF and lone CR becomes exactly one space. */
  lemma OneSpacePerBreak(a: string, brk: string, b: string)
    requires brk == "\r\n" || brk == "\n" || brk == "\r"
    requires NoBreaks(a) && NoBreaks(b)
    ensures StripLineBreaks(a + brk + b) == a + " " + b
  {
    var tail := brk + b;
    assert a + brk + b == a + tail;
    assert StripLineBreaks(a + tail) == StripLineBreaks(a) + StripLineBreaks(tail) by {
      if |a| > 0 {
        assert !IsBreak(a[|a| - 1]);
      }
      StripConcat(a, tail);
    }
    StripWithoutBreaks(a);
    StripHead(brk, b);
  }

  /** formatLogMsg: builds the prefix from the context's own keys, appends
      the quoted message with single quotes turned into double quotes, and
      turns every line break of the whole line into a space. */
  method FormatLogMsg(msg: string, ctx: Context) returns (line: string)
    ensures line == StripLineBreaks(Prefix(ctx) + "logmessage:'" + ReplaceQuotes(msg) + "'")
    ensures NoBreaks(line)
  {
    var prefix := "";
    if ctx.Fields? {
      var k := 0;
      while k < |ctx.fields|
        invariant 0 <= k <= |ctx.fields|
        invariant prefix == FieldsPrefix(ctx.fields[..k])
      {
        var (key, value) := ctx.fields[k];
        assert ctx.fields[..k + 1][..k] == ctx.fields[..k];
        prefix := prefix + " " + key + ":" + value + " ";
        k := k + 1;
      }
      assert ctx.fields[..k] == ctx.fields;
    }
    line := StripLineBreaks(prefix + "logmessage:'" + ReplaceQuotes(msg) + "'");
    StripRemovesBreaks(prefix + "logmessage:'" + ReplaceQuotes(msg) + "'");
  }

  /** When neither the prefix nor the message holds a line break, the line
      is the prefix, then logmessage:' and the message with its single
      quotes turned into double quotes, then a closing quote. */
  lemma LineShape(msg: string, ctx: Context)
    requires NoBreaks(Prefix(ctx)) && NoBreaks(msg)
    ensures StripLineBreaks(Prefix(ctx) + "logmessage:'" + ReplaceQuotes(msg) + "'")
         == Prefix(ctx) + "logmessage:'" + ReplaceQuotes(msg) + "'"
  {
    var body := ReplaceQuotes(msg);
    assert NoBreaks(body);
    DelimitersUnbroken();
    UnbrokenPieces(Prefix(ctx), "logmessage:'", body, "'");
  }

  lemma DelimitersUnbroken()
    ensures NoBreaks("logmessage:'") && NoBreaks("'")
  {
  }

  /** Four break-free pieces pass through together unchanged. */
  lemma UnbrokenPieces(a: string, b: string, c: string, d: string)
    requires NoBreaks(a) && NoBreaks(b) && NoBreaks(c) && NoBreaks(d)
    ensures StripLineBreaks(a + b + c + d) == a + b + c + d
  {
    NoBreaksAppend(a, b);
    NoBreaksAppend(a + b, c);
    NoBreaksAppend(a + b + c, d);
    StripWithoutBreaks(a + b + c + d);
  }

  lemma NoBreaksAppend(a: string, b: string)
    requires NoBreaks(a) && NoBreaks(b)
    ensures NoBreaks(a + b)
  {
    forall k | 0 <= k < |a + b|
      ensures !IsBreak((a + b)[k])
    {
      if k >= |a| {
        assert (a + b)[k] == b[k - |a|];
      }
    }
  }

  // ---------------------------------------------------------------------
  // configure (logger.js:63-74)
  // ---------------------------------------------------------------------

  /** The levels the logger accepts (logger.js:28-33). */
  predicate KnownLevel(level: string)
  {
    level == "INFO" || level == "WARN" || level == "ERROR" || level == "DEBUG"
  }

  /** Names every plain JavaScript object inherits from Object.prototype. */
  predicate InheritedName(name: string)
  {
    name in ["constructor", "hasOwnProperty", "isPrototypeOf", "propertyIsEnumerable",
             "toLocaleString", "toString", "valueOf", "__proto__", "__defineGetter__",
             "__defineSetter__", "__lookupGetter__", "__lookupSetter__"]
  }

  /** The test of logger.js:66 as written: `level in LogLevels` also holds
      for the names the object inherits. */
  predicate InLogLevels(level: string)
  {
    KnownLevel(level) || InheritedName(level)
  }

  /** The level configure applies with the test as written. */
  function AsWrittenLevel(level: string): (r: string)
    ensures InLogLevels(r)
    ensures InLogLevels(level) <==> r == level
    ensures !InLogLevels(level) ==> r == "INFO"
  {
    if InLogLevels(level) then level else "INFO"
  }

  /** The test as written lets an inherited name through: configure then
      sets every category to "toString", which is not a level, where the
      corrected test falls back to INFO. */
  lemma InheritedNameAccepted()
    ensures AsWrittenLevel("toString") == "toString" && !KnownLevel(AsWrittenLevel("toString"))
    ensures EffectiveLevel("toString") == "INFO"
  {
  }

  /** The level configure applies: the requested one when it is known,
      INFO otherwise. */
  function EffectiveLevel(level: string): (r: string)
    ensures KnownLevel(r)
    ensures KnownLevel(level) <==> r == level
    ensures !KnownLevel(level) <==> r == "INFO" && level != "INFO"
  {
    if KnownLevel(level) then level else "INFO"
  }

  /** The log4js configuration a Logger holds: its one console appender's
      type, layout type and pattern, the category levels in key order, and
      replaceConsole. */
  class LoggerConfig {
    var appenderType: string
    var layoutType: string
    var pattern: string
    var levels: seq<(string, string)>
    var replaceConsole: bool

    /** The configuration the constructor sets up (logger.js:39-60). */
    constructor ()
      ensures appenderType == "console" && layoutType == "pattern"
      ensures pattern == "2-Immerse subSource:%c level:%p %m sourcetime:%d{ISO8601_WITH_TZ_OFFSET} source:"
      ensures levels == [("index", "INFO"), ("component", "INFO"), ("dmapp", "DEBUG"), ("influxdb", "INFO"),
                         ("agenda", "INFO"), ("restapi", "DEBUG"), ("websocket", "INFO"), ("mongodb", "DEBUG")]
      ensures replaceConsole
    {
      appenderType := "console";
      layoutType := "pattern";
      pattern := "2-Immerse subSource:%c level:%p %m sourcetime:%d{ISO8601_WITH_TZ_OFFSET} source:";
      levels := [("index", "INFO"), ("component", "INFO"), ("dmapp", "DEBUG"), ("influxdb", "INFO"),
                 ("agenda", "INFO"), ("restapi", "DEBUG"), ("websocket", "INFO"), ("mongodb", "DEBUG")];
      replaceConsole := true;
    }

    /** configure: appends the label to the pattern and sets every category
        to the effective level, keeping the categories and their order. */
    method Configure(caption: string, level: string)
      modifies this
      ensures pattern == old(pattern) + caption
      ensures |levels| == |old(levels)|
      ensures forall k :: 0 <= k < |levels| ==> levels[k] == (old(levels)[k].0, EffectiveLevel(level))
      ensures appenderType == old(appenderType) && layoutType == old(layoutType)
      ensures replaceConsole == old(replaceConsole)
    {
      pattern := pattern + caption;
      var applied := level;
      if !KnownLevel(applied) {
        applied := "INFO";
      }
      var k := 0;
      while k < |levels|
        invariant 0 <= k <= |levels| && |levels| == |old(levels)|
        invariant forall i :: 0 <= i < k ==> levels[i] == (old(levels)[i].0, applied)
        invariant forall i :: k <= i < |levels| ==> levels[i] == old(levels)[i]
        invariant pattern == old(pattern) + caption && replaceConsole == old(replaceConsole)
        invariant appenderType == old(appenderType) && layoutType == old(layoutType)
      {
        levels := levels[k := (levels[k].0, applied)];
        k := k + 1;
      }
    }
  }
}

=== FILE: stats.dfy ===
/** The per-component metrics record of one tick, and sums over a snapshot
    of such records taken in the snapshot's key order. */
module Stats {

  type Id = string

  datatype Option<T> = None | Some(value: T)

  /** Value stored in videoBandwidth once the engine has disabled a component. */
  const TURNED_OFF: real := -1.0

  /** One component's metrics as the time-series store delivers them:
      averaged video and audio bandwidth, their sum, the bitrate ladders,
      the bitrate the player claims to be playing, and the sum of the top rungs. */
  datatype Stat = Stat(
    videoBandwidth: real,
    audioBandwidth: real,
    bandwidth: real,
    videoBitrates: seq<real>,
    audioBitrates: seq<real>,
    playingVideoBitrate: real,
    maxBitrate: real)

  predicate Ascending(l: seq<real>)
  {
    forall i, j :: 0 <= i < j < |l| ==> l[i] <= l[j]
  }

  /** A record the algorithm can work on: a non-empty, ascending (repeats allowed),
      non-negative video ladder and a video bandwidth that is a measurement
      (non-negative) or the disabled marker, and a non-negative playing bitrate. */
  predicate WellFormed(s: Stat)
  {
    && |s.videoBitrates| > 0
    && Ascending(s.videoBitrates)
    && s.videoBitrates[0] >= 0.0
    && (s.videoBandwidth >= 0.0 || s.videoBandwidth == TURNED_OFF)
    && s.playingVideoBitrate >= 0.0
  }

  /** The video bandwidth a component occupies; a disabled one occupies none. */
  function Occupied(s: Stat): real
  {
    if s.videoBandwidth == TURNED_OFF then 0.0 else s.videoBandwidth
  }

  predicate Distinct(ids: seq<Id>)
  {
    forall i, j :: 0 <= i < j < |ids| ==> ids[i] != ids[j]
  }

  predicate Covers(ids: seq<Id>, stats: map<Id, Stat>)
  {
    forall id <- ids :: id in stats
  }

  /** Sum of f over the records named by ids, in order. */
  function Total(ids: seq<Id>, stats: map<Id, Stat>, f: Stat -> real): real
    requires Covers(ids, stats)
    decreases |ids|
  {
    if ids == [] then 0.0
    else Total(ids[..|ids| - 1], stats, f) + f(stats[ids[|ids| - 1]])
  }

  /** Replacing one record changes the sum by exactly the change of that record. */
  lemma {:induction false} TotalUpdate(ids: seq<Id>, stats: map<Id, Stat>, f: Stat -> real, id: Id, s: Stat)
    requires Covers(ids, stats) && Distinct(ids) && id in stats
    ensures Covers(ids, stats[id := s])
    ensures Total(ids, stats[id := s], f)
         == Total(ids, stats, f) + (if id in ids then f(s) - f(stats[id]) else 0.0)
    decreases |ids|
  {
    if ids != [] {
      var init := ids[..|ids| - 1];
      assert Distinct(init);
      TotalUpdate(init, stats, f, id, s);
      if id == ids[|ids| - 1] {
        assert id !in init;
      } else {
        assert id in ids <==> id in init;
      }
    }
  }

  /** The sum only depends on the records it names. */
  lemma {:induction false} TotalAgree(ids: seq<Id>, a: map<Id, Stat>, b: map<Id, Stat>, f: Stat -> real)
    requires Covers(ids, a) && Covers(ids, b)
    requires forall id <- ids :: a[id] == b[id]
    ensures Total(ids, a, f) == Total(ids, b, f)
    decreases |ids|
  {
    if ids != [] {
      TotalAgree(ids[..|ids| - 1], a, b, f);
    }
  }

  /** Sum of a natural-number measure over the records named by ids. */
  function Count(ids: seq<Id>, stats: map<Id, Stat>, f: Stat -> nat): nat
    requires Covers(ids, stats)
    decreases |ids|
  {
    if ids == [] then 0
    else Count(ids[..|ids| - 1], stats, f) + f(stats[ids[|ids| - 1]])
  }

  lemma {:induction false} CountUpdate(ids: seq<Id>, stats: map<Id, Stat>, f: Stat -> nat, id: Id, s: Stat)
    requires Covers(ids, stats) && Distinct(ids) && id in stats
    ensures Covers(ids, stats[id := s])
    ensures Count(ids, stats[id := s], f)
         == Count(ids, stats, f) + (if id in ids then f(s) - f(stats[id]) else 0)
    decreases |ids|
  {
    if ids != [] {
      var init := ids[..|ids| - 1];
      assert Distinct(init);
      CountUpdate(init, stats, f, id, s);
      if id == ids[|ids| - 1] {
        assert id !in init;
      } else {
        assert id in ids <==> id in init;
      }
    }
  }
}

=== FILE: tiering.dfy ===
/** prepDMAppData (index.js:395-438): bins the components of a DMApp into
    priority tiers, tier 1 holding the highest priorities. */
module Tiering {
  import opened Stats

  /** Default number of priority tiers (index.js:50). */
  const PRIORITY_LEVELS: int := 3

  /** One entry of the layout's component map: instanceId and its priority. */
  datatype ComponentInfo = ComponentInfo(instanceId: Id, priority: int)

  predicate DistinctIds(cs: seq<ComponentInfo>)
  {
    forall i, j :: 0 <= i < j < |cs| ==> cs[i].instanceId != cs[j].instanceId
  }

  function Ids(cs: seq<ComponentInfo>): (ids: seq<Id>)
    ensures |ids| == |cs| && forall i :: 0 <= i < |cs| ==> ids[i] == cs[i].instanceId
  {
    seq(|cs|, i requires 0 <= i < |cs| => cs[i].instanceId)
  }

  // ---------------------------------------------------------------------
  // Priority range (index.js:400-410)
  // ---------------------------------------------------------------------

  /** The lowest priority of a non-empty component set. */
  function MinPriority(cs: seq<ComponentInfo>): (m: int)
    requires |cs| > 0
    ensures forall c <- cs :: m <= c.priority
    ensures exists c <- cs :: c.priority == m
    decreases |cs|
  {
    var last := cs[|cs| - 1].priority;
    if |cs| == 1 then last
    else
      var m := MinPriority(cs[..|cs| - 1]);
      assert forall c <- cs :: c in cs[..|cs| - 1] || c == cs[|cs| - 1];
      if last < m then last else m
  }

  /** The highest priority, where the scan starts from 0 rather than from
      the first priority. */
  function MaxPriority(cs: seq<ComponentInfo>): (m: int)
    ensures m >= 0 && forall c <- cs :: c.priority <= m
    ensures m == 0 || exists c <- cs :: c.priority == m
    decreases |cs|
  {
    if cs == [] then 0
    else
      var m := MaxPriority(cs[..|cs| - 1]);
      var last := cs[|cs| - 1].priority;
      assert forall c <- cs :: c in cs[..|cs| - 1] || c == cs[|cs| - 1];
      if last > m then last else m
  }

  /** The scan of index.js:401-410: min starts undefined and max starts at 0. */
  method PriorityRange(cs: seq<ComponentInfo>) returns (min: Option<int>, max: int)
    ensures min.None? <==> |cs| == 0
    ensures min.Some? ==> (forall c <- cs :: min.value <= c.priority) && exists c <- cs :: c.priority == min.value
    ensures max >= 0 && forall c <- cs :: c.priority <= max
    ensures max == 0 || exists c <- cs :: c.priority == max
  {
    min, max := None, 0;
    var k := 0;
    while k < |cs|
      invariant 0 <= k <= |cs|
      invariant min.None? <==> k == 0
      invariant min.Some? ==> (forall c <- cs[..k] :: min.value <= c.priority) && exists c <- cs[..k] :: c.priority == min.value
      invariant max >= 0 && forall c <- cs[..k] :: c.priority <= max
      invariant max == 0 || exists c <- cs[..k] :: c.priority == max
    {
      assert forall c <- cs[..k + 1] :: c in cs[..k] || c == cs[k];
      assert cs[k] in cs[..k + 1];
      assert forall c <- cs[..k] :: c in cs[..k + 1];
      var priority := cs[k].priority;
      if min.None? || priority < min.value {
        min := Some(priority);
      }
      if priority > max {
        max := priority;
      }
      k := k + 1;
    }
    assert cs[..k] == cs;
  }

  /** The range the scan finds is the one MinPriority and MaxPriority define. */
  lemma PriorityRangeIsUnique(cs: seq<ComponentInfo>, lo: int, hi: int)
    requires |cs| > 0
    requires (forall c <- cs :: lo <= c.priority) && exists c <- cs :: c.priority == lo
    requires hi >= 0 && (forall c <- cs :: c.priority <= hi) && (hi == 0 || exists c <- cs :: c.priority == hi)
    ensures lo == MinPriority(cs) && hi == MaxPriority(cs)
  {
  }

  /** When every priority is negative the range still ends at 0. */
  lemma NegativePrioritiesEndAtZero(cs: seq<ComponentInfo>)
    requires forall c <- cs :: c.priority < 0
    ensures MaxPriority(cs) == 0
  {
  }

  // ---------------------------------------------------------------------
  // Tier count and tier index (index.js:412-435)
  // ---------------------------------------------------------------------

  /** The requested number of tiers (default 3), cut down to the number of
      components. */
  function LevelCount(n: nat, requested: Option<int>): (levels: int)
    ensures levels <= n
    ensures requested.None? && n >= 3 ==> levels == PRIORITY_LEVELS
    ensures var wanted := if requested.Some? then requested.value else PRIORITY_LEVELS;
      levels <= wanted && (levels == n || levels == wanted)
  {
    var levels := if requested.Some? then requested.value else PRIORITY_LEVELS;
    if levels > n then n else levels
  }

  /** Tier of priority p. index.js:433 computes
      levels - parseInt((p - lo) / ((hi - lo + 1) / levels)); for the
      non-negative quotient that is levels minus the floor of
      (p - lo) * levels / (hi - lo + 1). */
  function TierOf(p: int, lo: int, hi: int, levels: int): (t: int)
    requires lo <= hi
    ensures lo <= p <= hi && levels >= 1 ==> 1 <= t <= levels
  {
    TierQuotient(p, lo, hi, levels);
    levels - (p - lo) * levels / (hi - lo + 1)
  }

  lemma DivBelow(x: int, levels: int, d: int)
    requires 0 <= x < d && levels >= 1
    ensures 0 <= x * levels / d < levels
  {
    var q := x * levels / d;
    assert x * levels < d * levels;
    assert q * d <= x * levels;
    assert q >= levels ==> q * d >= levels * d;
  }

  /** The quotient TierOf subtracts, for a priority in the range. */
  lemma TierQuotient(p: int, lo: int, hi: int, levels: int)
    requires lo <= hi
    ensures lo <= p <= hi && levels >= 1 ==> 0 <= (p - lo) * levels / (hi - lo + 1) < levels
  {
    if lo <= p <= hi && levels >= 1 {
      DivBelow(p - lo, levels, hi - lo + 1);
    }
  }

  lemma DivMonotone(a: int, b: int, d: int)
    requires 0 <= a <= b && d > 0
    ensures a / d <= b / d
  {
    var qa, qb := a / d, b / d;
    assert qa * d <= a;
    assert b < (qb + 1) * d;
    assert qa > qb ==> qa * d >= (qb + 1) * d;
  }

  /** A higher priority never lands in a lower tier (a larger index). */
  lemma TierOfMonotone(p: int, q: int, lo: int, hi: int, levels: int)
    requires lo <= p <= q <= hi && levels >= 1
    ensures TierOf(q, lo, hi, levels) <= TierOf(p, lo, hi, levels)
  {
    assert (p - lo) * levels <= (q - lo) * levels;
    DivMonotone((p - lo) * levels, (q - lo) * levels, hi - lo + 1);
  }

  /** The tier of a component of cs. */
  function TierIndex(cs: seq<ComponentInfo>, c: ComponentInfo, levels: int): int
    requires |cs| > 0
  {
    TierOf(c.priority, MinPriority(cs), MaxPriority(cs), levels)
  }

  /** The minimum-priority components always land in the last tier, so equal
      priorities put every component there. */
  lemma LowestPriorityInLastTier(cs: seq<ComponentInfo>, levels: int)
    requires |cs| > 0 && levels >= 1
    ensures forall c <- cs :: c.priority == MinPriority(cs) ==> TierIndex(cs, c, levels) == levels
    ensures (forall c <- cs :: c.priority == cs[0].priority) ==> forall c <- cs :: TierIndex(cs, c, levels) == levels
  {
    var lo := MinPriority(cs);
    assert (lo - lo) * levels == 0;
    if forall c <- cs :: c.priority == cs[0].priority {
      var m :| m in cs && m.priority == lo;
    }
  }

  // ---------------------------------------------------------------------
  // Sorting by descending priority (index.js:424-427)
  // ---------------------------------------------------------------------

  predicate Descending(cs: seq<ComponentInfo>)
  {
    forall i, j :: 0 <= i < j < |cs| ==> cs[i].priority >= cs[j].priority
  }

  function Insert(c: ComponentInfo, s: seq<ComponentInfo>): (r: seq<ComponentInfo>)
    requires Descending(s)
    ensures Descending(r) && multiset(r) == multiset(s) + multiset{c}
    ensures |r| == |s| + 1 && (r[0] == c || (|s| > 0 && r[0] == s[0]))
    decreases |s|
  {
    if s == [] || s[0].priority <= c.priority then [c] + s
    else
      var rest := Insert(c, s[1..]);
      assert s == [s[0]] + s[1..];
      assert rest[0].priority <= s[0].priority;
      [s[0]] + rest
  }

  /** The keys in the order the engine's sort leaves them: descending
      priority, a permutation of the input. */
  function SortByPriority(cs: seq<ComponentInfo>): (r: seq<ComponentInfo>)
    ensures Descending(r) && multiset(r) == multiset(cs)
    decreases |cs|
  {
    if cs == [] then []
    else
      assert cs == [cs[0]] + cs[1..];
      Insert(cs[0], SortByPriority(cs[1..]))
  }

  // ---------------------------------------------------------------------
  // The tiers (index.js:428-437)
  // ---------------------------------------------------------------------

  /** The components of sorted that fall into tier t, in sorted order. */
  function TierEntries(sorted: seq<ComponentInfo>, t: int, lo: int, hi: int, levels: int): (r: seq<ComponentInfo>)
    requires lo <= hi
    ensures |r| <= |sorted|
    decreases |sorted|
  {
    if sorted == [] then []
    else
      var last := sorted[|sorted| - 1];
      TierEntries(sorted[..|sorted| - 1], t, lo, hi, levels) + (if TierOf(last.priority, lo, hi, levels) == t then [last] else [])
  }

  /** A tier holds exactly the components of its input whose tier index it is. */
  lemma {:induction false} TierEntriesMembers(sorted: seq<ComponentInfo>, t: int, lo: int, hi: int, levels: int)
    requires lo <= hi
    ensures forall x <- TierEntries(sorted, t, lo, hi, levels) :: x in sorted && TierOf(x.priority, lo, hi, levels) == t
    ensures forall x <- sorted :: TierOf(x.priority, lo, hi, levels) == t ==> x in TierEntries(sorted, t, lo, hi, levels)
    decreases |sorted|
  {
    if sorted != [] {
      var init := sorted[..|sorted| - 1];
      var last := sorted[|sorted| - 1];
      TierEntriesMembers(init, t, lo, hi, levels);
      assert forall x <- sorted :: x in init || x == last;
    }
  }

  /** Each tier keeps the descending order of its input. */
  lemma {:induction false} TierEntriesDescending(sorted: seq<ComponentInfo>, t: int, lo: int, hi: int, levels: int)
    requires lo <= hi && Descending(sorted)
    ensures Descending(TierEntries(sorted, t, lo, hi, levels))
    decreases |sorted|
  {
    if sorted != [] {
      var init := sorted[..|sorted| - 1];
      TierEntriesDescending(init, t, lo, hi, levels);
      TierEntriesMembers(init, t, lo, hi, levels);
      var r := TierEntries(init, t, lo, hi, levels);
      forall x <- r
        ensures x.priority >= sorted[|sorted| - 1].priority
      {
        var i :| 0 <= i < |init| && init[i] == x;
      }
    }
  }

  lemma TierEntriesSnoc(keys: seq<ComponentInfo>, k: nat, t: int, lo: int, hi: int, levels: int)
    requires lo <= hi && k < |keys|
    ensures TierOf(keys[k].priority, lo, hi, levels) == t ==>
      TierEntries(keys[..k + 1], t, lo, hi, levels) == TierEntries(keys[..k], t, lo, hi, levels) + [keys[k]]
    ensures TierOf(keys[k].priority, lo, hi, levels) != t ==>
      TierEntries(keys[..k + 1], t, lo, hi, levels) == TierEntries(keys[..k], t, lo, hi, levels)
  {
    assert keys[..k + 1][..k] == keys[..k];
  }

  /** The id lists of tiers 1..levels built from keys. */
  function Tiers(keys: seq<ComponentInfo>, lo: int, hi: int, levels: nat): (r: seq<seq<Id>>)
    requires lo <= hi
    ensures |r| == levels
    ensures forall t :: 0 <= t < levels ==> r[t] == Ids(TierEntries(keys, t + 1, lo, hi, levels))
  {
    seq(levels, t requires 0 <= t < levels => Ids(TierEntries(keys, t + 1, lo, hi, levels)))
  }

  lemma TiersSnoc(keys: seq<ComponentInfo>, k: nat, lo: int, hi: int, levels: nat)
    requires lo <= hi && k < |keys|
    requires 1 <= TierOf(keys[k].priority, lo, hi, levels) <= levels
    ensures var level := TierOf(keys[k].priority, lo, hi, levels);
      Tiers(keys[..k + 1], lo, hi, levels)
        == Tiers(keys[..k], lo, hi, levels)[level - 1 := Tiers(keys[..k], lo, hi, levels)[level - 1] + [keys[k].instanceId]]
  {
    var level := TierOf(keys[k].priority, lo, hi, levels);
    var before, after := Tiers(keys[..k], lo, hi, levels), Tiers(keys[..k + 1], lo, hi, levels);
    forall t | 0 <= t < levels
      ensures after[t] == before[level - 1 := before[level - 1] + [keys[k].instanceId]][t]
    {
      var prev := TierEntries(keys[..k], t + 1, lo, hi, levels);
      TierEntriesSnoc(keys, k, t + 1, lo, hi, levels);
      if t == level - 1 {
        IdsAppend(prev, [keys[k]]);
      }
    }
  }

  lemma IdsAppend(a: seq<ComponentInfo>, b: seq<ComponentInfo>)
    ensures Ids(a + b) == Ids(a) + Ids(b)
  {
  }

  lemma SortedMember(cs: seq<ComponentInfo>, x: ComponentInfo)
    requires x in SortByPriority(cs)
    ensures x in cs
  {
    assert x in multiset(SortByPriority(cs));
  }

  /** What prepDMAppData computes: None where it throws, no tiers for no
      components, otherwise tiers 1..levels of the keys sorted by priority. */
  function TierLists(cs: seq<ComponentInfo>, priorityLevels: Option<int>): (r: Option<seq<seq<Id>>>)
    ensures r.None? <==> |cs| > 0 && LevelCount(|cs|, priorityLevels) <= 0
    ensures r.Some? && |cs| == 0 ==> r.value == []
    ensures r.Some? && |cs| > 0 ==> |r.value| == LevelCount(|cs|, priorityLevels)
  {
    var levels := LevelCount(|cs|, priorityLevels);
    if |cs| == 0 then Some([])
    else if levels <= 0 then None
    else
      assert MinPriority(cs) <= cs[0].priority <= MaxPriority(cs);
      Some(Tiers(SortByPriority(cs), MinPriority(cs), MaxPriority(cs), levels))
  }

  /** The binning loop of index.js:428-435: each key, in order, is appended
      to the tier its priority maps to. */
  method Bin(keys: seq<ComponentInfo>, lo: int, max: int, levels: int) returns (results: seq<seq<Id>>)
    requires lo <= max && levels >= 1
    requires forall x <- keys :: lo <= x.priority <= max
    ensures results == Tiers(keys, lo, max, levels)
  {
    results := seq(levels, _ => []);
    var k := 0;
    assert results == Tiers(keys[..0], lo, max, levels);
    while k < |keys|
      invariant 0 <= k <= |keys|
      invariant results == Tiers(keys[..k], lo, max, levels)
    {
      var key := keys[k];
      assert key in keys;
      var level := TierOf(key.priority, lo, max, levels);
      BinStep(keys, k, lo, max, levels, results);
      results := results[level - 1 := results[level - 1] + [key.instanceId]];
      k := k + 1;
    }
    assert keys[..k] == keys;
  }

  /** One turn of the binning loop appends key k to its tier. */
  lemma BinStep(keys: seq<ComponentInfo>, k: nat, lo: int, hi: int, levels: nat, results: seq<seq<Id>>)
    requires lo <= hi && levels >= 1 && k < |keys| && lo <= keys[k].priority <= hi
    requires results == Tiers(keys[..k], lo, hi, levels)
    ensures var level := TierOf(keys[k].priority, lo, hi, levels);
      1 <= level <= |results|
      && results[level - 1 := results[level - 1] + [keys[k].instanceId]] == Tiers(keys[..k + 1], lo, hi, levels)
  {
    TiersSnoc(keys, k, lo, hi, levels);
  }

  /** prepDMAppData. The result is None where the source throws: with at
      least one component and a tier count of 0 or less, the slot a
      component is pushed into does not exist (index.js:434). */
  method PrepTiers(cs: seq<ComponentInfo>, priorityLevels: Option<int>) returns (r: Option<seq<seq<Id>>>)
    ensures r == TierLists(cs, priorityLevels)
  {
    var min, max := PriorityRange(cs);
    var levels := if priorityLevels.Some? then priorityLevels.value else PRIORITY_LEVELS;
    if levels > |cs| {
      levels := |cs|;
    }
    var keys := SortByPriority(cs);
    if |cs| == 0 {
      return Some([]);
    }
    if levels <= 0 {
      return None;
    }
    var lo := min.value;
    PriorityRangeIsUnique(cs, lo, max);
    assert lo <= cs[0].priority <= max;
    forall x <- keys
      ensures lo <= x.priority <= max
    {
      SortedMember(cs, x);
    }
    var results := Bin(keys, lo, max, levels);
    r := Some(results);
  }

  /** The ids held by tiers from index from on (0-based). */
  function Scope(tiers: seq<seq<Id>>, from: int): set<Id>
  {
    set t, id | 0 <= from <= t < |tiers| && id in tiers[t] :: id
  }

  /** The tiers hold exactly the ids of the components. */
  lemma TiersCover(cs: seq<ComponentInfo>, priorityLevels: Option<int>)
    requires TierLists(cs, priorityLevels).Some?
    ensures forall id :: id in Scope(TierLists(cs, priorityLevels).value, 0) <==> id in Ids(cs)
  {
    if |cs| > 0 {
      var levels := LevelCount(|cs|, priorityLevels);
      var lo, hi := MinPriority(cs), MaxPriority(cs);
      assert lo <= cs[0].priority <= hi;
      assert TierLists(cs, priorityLevels).value == Tiers(SortByPriority(cs), lo, hi, levels);
      ScopeHoldsComponents(cs, lo, hi, levels);
      forall id <- Ids(cs)
        ensures id in Scope(TierLists(cs, priorityLevels).value, 0)
      {
        var j :| 0 <= j < |cs| && Ids(cs)[j] == id;
        ComponentInScope(cs, lo, hi, levels, j);
      }
    }
  }

  lemma ScopeHoldsComponents(cs: seq<ComponentInfo>, lo: int, hi: int, levels: nat)
    requires lo <= hi
    ensures forall id | id in Scope(Tiers(SortByPriority(cs), lo, hi, levels), 0) :: id in Ids(cs)
  {
    var tiers := Tiers(SortByPriority(cs), lo, hi, levels);
    forall id | id in Scope(tiers, 0)
      ensures id in Ids(cs)
    {
      var t :| 0 <= t < |tiers| && id in tiers[t];
      TierIdIsComponent(cs, lo, hi, levels, t + 1, id);
    }
  }

  lemma ComponentInScope(cs: seq<ComponentInfo>, lo: int, hi: int, levels: nat, j: int)
    requires |cs| > 0 && levels >= 1 && 0 <= j < |cs| && lo == MinPriority(cs) && hi == MaxPriority(cs) && lo <= hi
    ensures cs[j].instanceId in Scope(Tiers(SortByPriority(cs), lo, hi, levels), 0)
  {
    var t := TierOf(cs[j].priority, lo, hi, levels);
    ComponentInTier(cs, lo, hi, levels, j);
    InScope(Tiers(SortByPriority(cs), lo, hi, levels), t - 1, cs[j].instanceId);
  }

  lemma ComponentInTier(cs: seq<ComponentInfo>, lo: int, hi: int, levels: nat, j: int)
    requires levels >= 1 && 0 <= j < |cs| && lo == MinPriority(cs) && hi == MaxPriority(cs) && lo <= hi
    ensures var t := TierOf(cs[j].priority, lo, hi, levels);
      1 <= t <= levels && cs[j].instanceId in Tiers(SortByPriority(cs), lo, hi, levels)[t - 1]
  {
    var sorted := SortByPriority(cs);
    var t := TierOf(cs[j].priority, lo, hi, levels);
    ComponentIdInTier(cs, lo, hi, levels, j);
    assert Tiers(sorted, lo, hi, levels)[t - 1] == Ids(TierEntries(sorted, t, lo, hi, levels));
  }

  lemma InScope(tiers: seq<seq<Id>>, t: int, id: Id)
    requires 0 <= t < |tiers| && id in tiers[t]
    ensures id in Scope(tiers, 0)
  {
  }

  lemma TierIdIsComponent(cs: seq<ComponentInfo>, lo: int, hi: int, levels: nat, t: int, id: Id)
    requires lo <= hi && 1 <= t <= levels && id in Ids(TierEntries(SortByPriority(cs), t, lo, hi, levels))
    ensures id in Ids(cs)
  {
    var sorted := SortByPriority(cs);
    var es := TierEntries(sorted, t, lo, hi, levels);
    var i :| 0 <= i < |es| && Ids(es)[i] == id;
    TierEntriesMembers(sorted, t, lo, hi, levels);
    assert es[i] in es;
    SortedMember(cs, es[i]);
    var j :| 0 <= j < |cs| && cs[j] == es[i];
    assert Ids(cs)[j] == id;
  }

  lemma ComponentIdInTier(cs: seq<ComponentInfo>, lo: int, hi: int, levels: nat, j: int)
    requires levels >= 1 && 0 <= j < |cs| && lo == MinPriority(cs) && hi == MaxPriority(cs)
    ensures var t := TierOf(cs[j].priority, lo, hi, levels);
      1 <= t <= levels && cs[j].instanceId in Ids(TierEntries(SortByPriority(cs), t, lo, hi, levels))
  {
    var c := cs[j];
    assert c in cs;
    assert lo <= c.priority <= hi;
    IndexTierHolds(cs, levels, c);
  }

  lemma SameIdSameComponent(cs: seq<ComponentInfo>, a: ComponentInfo, b: ComponentInfo)
    requires DistinctIds(cs) && a in cs && b in cs && a.instanceId == b.instanceId
    ensures a == b
  {
    var i :| 0 <= i < |cs| && cs[i] == a;
    var j :| 0 <= j < |cs| && cs[j] == b;
    assert !(i < j) && !(j < i);
  }

  /** One component's side of the partition. */
  lemma TierMembership(cs: seq<ComponentInfo>, levels: int, c: ComponentInfo, t: int)
    requires |cs| > 0 && DistinctIds(cs) && c in cs
    ensures c.instanceId in Ids(TierEntries(SortByPriority(cs), t, MinPriority(cs), MaxPriority(cs), levels))
        <==> t == TierIndex(cs, c, levels)
  {
    if c.instanceId in Ids(TierEntries(SortByPriority(cs), t, MinPriority(cs), MaxPriority(cs), levels)) {
      InTierAtIndex(cs, levels, c, t);
    }
    if t == TierIndex(cs, c, levels) {
      IndexTierHolds(cs, levels, c);
    }
  }

  lemma InTierAtIndex(cs: seq<ComponentInfo>, levels: int, c: ComponentInfo, t: int)
    requires |cs| > 0 && DistinctIds(cs) && c in cs
    requires c.instanceId in Ids(TierEntries(SortByPriority(cs), t, MinPriority(cs), MaxPriority(cs), levels))
    ensures t == TierIndex(cs, c, levels)
  {
    var sorted := SortByPriority(cs);
    var lo, hi := MinPriority(cs), MaxPriority(cs);
    var es := TierEntries(sorted, t, lo, hi, levels);
    TierEntriesMembers(sorted, t, lo, hi, levels);
    var i :| 0 <= i < |es| && Ids(es)[i] == c.instanceId;
    SortedMember(cs, es[i]);
    SameIdSameComponent(cs, es[i], c);
  }

  lemma IndexTierHolds(cs: seq<ComponentInfo>, levels: int, c: ComponentInfo)
    requires |cs| > 0 && c in cs
    ensures c.instanceId in Ids(TierEntries(SortByPriority(cs), TierIndex(cs, c, levels), MinPriority(cs), MaxPriority(cs), levels))
  {
    var sorted := SortByPriority(cs);
    var lo, hi := MinPriority(cs), MaxPriority(cs);
    var t := TierIndex(cs, c, levels);
    var es := TierEntries(sorted, t, lo, hi, levels);
    TierEntriesMembers(sorted, t, lo, hi, levels);
    assert c in multiset(sorted);
    var i :| 0 <= i < |es| && es[i] == c;
    assert Ids(es)[i] == c.instanceId;
  }

  /** The tiers partition the components: with distinct ids, each
      component's id is in exactly the tier TierIndex names, and that
      tier is one of 1..levels. */
  lemma TiersPartition(cs: seq<ComponentInfo>, levels: int)
    requires |cs| > 0 && levels >= 1 && DistinctIds(cs)
    ensures forall c <- cs, t | 1 <= t <= levels ::
      (c.instanceId in Ids(TierEntries(SortByPriority(cs), t, MinPriority(cs), MaxPriority(cs), levels))
       <==> t == TierIndex(cs, c, levels))
    ensures forall c <- cs :: 1 <= TierIndex(cs, c, levels) <= levels
  {
    forall c <- cs
      ensures 1 <= TierIndex(cs, c, levels) <= levels
    {
      assert MinPriority(cs) <= c.priority <= MaxPriority(cs);
    }
    forall c <- cs, t | 1 <= t <= levels
      ensures c.instanceId in Ids(TierEntries(SortByPriority(cs), t, MinPriority(cs), MaxPriority(cs), levels))
          <==> t == TierIndex(cs, c, levels)
    {
      TierMembership(cs, levels, c, t);
    }
  }

  /** Each tier lists its components by descending priority. */
  lemma TiersDescending(cs: seq<ComponentInfo>, levels: int, t: int)
    requires |cs| > 0
    ensures Descending(TierEntries(SortByPriority(cs), t, MinPriority(cs), MaxPriority(cs), levels))
  {
    TierEntriesDescending(SortByPriority(cs), t, MinPriority(cs), MaxPriority(cs), levels);
  }
}
